=== FILE: README.md ===
# Tasklet runner bookkeeping, modelled in Dafny

This project models the bookkeeping inside eWoms' `TaskletRunner`
(`ewoms/parallel/tasklets.hh`). The runner hands opaque units of work
("tasklets") either to the calling thread or to a fixed pool of worker
threads. It offers a barrier built from a special tasklet and shuts down
by queueing an end-marker tasklet.

The runner's shared state is three things:

- a FIFO queue of tasklets, each with a reference (run) count and a kind
  (ordinary, barrier, end marker);
- the wake-up gate. This is the runner mutex used as a binary semaphore:
  it is locked at construction and unlocked by `dispatch` (line 186). A
  worker re-locks it before it reads the queue (line 221) and unlocks it
  again when it meets the lone end marker (line 235) or, after a hand-out,
  when the queue still holds something (line 248);
- for each barrier tasklet, a counter of the threads waiting on it.

Every change to the queue happens under the queue mutex, and each such block
is one atomic, pure step over an immutable state. A worker's pass is one
step in the main model: it takes the gate (line 221) and runs its queue
section (lines 224-251) with nothing in between. The source does not do
that. Line 221 is outside the queue mutex, so a dispatch and another
worker's gate take can come between the two halves. `races.dfy` models the
loop as written, with the two halves apart, and shows that this can make a
worker read the head of an empty queue (see "## Findings"). The main model
uses the fused pass, which is what the gate is evidently meant to achieve.

The project has six files:

- `tasklets.dfy` (module `Tasklets`): the tasklet record, the inline run
  loop of synchronous mode, and `Schedule`. `Schedule` is the reference
  order of hand-outs for a queue: each tasklet's id repeated once per
  remaining run, in queue order.
- `barriers.dfy` (module `Barriers`): the arrival counter of a barrier
  tasklet and its release condition.
- `runner.dfy` (module `Runners`): the runner state and its critical
  sections (construction, `dispatch`, one fused pass of the worker loop,
  `barrier`, destruction).
- `traces.dfy` (module `Traces`): arbitrary interleavings of those steps,
  and the properties that hold over every such interleaving.
- `races.dfy` (module `Races`): the worker loop as two separate actions,
  the race this allows, and what the unfused loop still keeps.
- `objects.dfy` (module `Objects`): tasklets as shared objects. Run counts
  live in the objects and the queue holds handles. This module shows when
  the value model of the other modules agrees with it.

`run()` is opaque. A step records the id of the tasklet it runs or hands
out, so a trace of runs can be compared with `Schedule`. A worker step
taken while the gate is closed, or when no worker is left, changes nothing:
that worker stays parked.

The main model queues tasklet values. The source queues `shared_ptr`s and
lowers the count inside the shared object. The two agree as long as every
dispatch is of an object that has not been dispatched before
(`Objects.Simulation`). Dispatching one object twice behaves differently
in the two modes (`Objects.RedispatchSync`, `Objects.RedispatchAsync`).

The central invariant is `Traces.RunSchedule`. It covers every trace of
dispatches, barriers, destruction and fused worker passes in which callers
dispatch ordinary tasklets with a positive count. It says that the runs so
far, followed by the schedule of what is still queued, equal the schedule
of everything submitted. FIFO hand-out and exact run counts follow from it
(`Traces.FifoFromCreate`). The same invariant holds for the unfused loop
as written, over every interleaving of dispatches of ordinary tasklets with
a positive count, gate takes and queue sections, up to the first failure (`Races.PlayOutSchedule`,
`Races.PlayOutFifo`): the gate take never touches the queue, so the split
only lets a worker find the queue empty. The equivalence of synchronous and asynchronous
mode (`Traces.SyncEquivalence`) is proved separately, from the inline run
loop and a full drain of the queue.

The model also shows a behaviour of the code. A worker pops the head only
when its count, after the decrement, is exactly zero (line 240). So an
ordinary tasklet queued with a count of zero or less is never popped. It is
handed out again on every worker step, and nothing queued behind it is ever
reached. In synchronous mode the same tasklet is not run at all
(`Traces.NonPositiveCountNeverRetires`). This is why `Traces.RunSchedule`
only covers positive counts.

## Model

| member | source | states |
|---|---|---|
| Tasklets.NewTasklet | ewoms/parallel/tasklets.hh:47-49 | A tasklet created without a count is an ordinary tasklet with a run count of 1. |
| Tasklets.EndMarkerTasklet | ewoms/parallel/tasklets.hh:114-122 | The terminating tasklet reports itself as an end marker and carries the default run count. |
| Tasklets.DefaultRunsOnce | ewoms/parallel/tasklets.hh:47-49 | A tasklet created without a count is run exactly once, and its count ends at 0. |
| Tasklets.RunInline | ewoms/parallel/tasklets.hh:171-176 | Synchronous dispatch runs a tasklet exactly k times when its count k is positive, and never otherwise. Every run is of that tasklet. The count is left at 0, or untouched when it was not positive. |
| Tasklets.InlineMatchesSchedule | ewoms/parallel/tasklets.hh:171-176 | For an ordinary tasklet with a positive count, the inline runs are exactly the hand-outs the reference schedule lists for it. |
| Tasklets.Retire | ewoms/parallel/tasklets.hh:239-243 | A hand-out lowers only the head's count by one. The head is popped exactly when its count reaches 0, and the rest of the queue is unchanged. |
| Tasklets.HandOutSchedule | ewoms/parallel/tasklets.hh:227-243 | Handing out the head uses up exactly the first entry of the queue's schedule. The schedule of the queue that is left is the rest. |
| Barriers.NewBarrier | ewoms/parallel/tasklets.hh:76-81 | A new barrier keeps the given worker count and has no one waiting, so it does not release. |
| Barriers.Wait | ewoms/parallel/tasklets.hh:86-101 | Each wait raises the waiting count by exactly one and leaves the worker count alone. It releases everybody exactly when the count reaches at least the worker count plus one. |
| Barriers.ArrivalsCount | ewoms/parallel/tasklets.hh:86-101 | After k arrivals the count has grown by exactly k. The i-th arrival releases exactly when it brings the count to at least the worker count plus one. |
| Barriers.ReleasedOnLastArrival | ewoms/parallel/tasklets.hh:76-101 | On a new barrier for n workers, the first n arrivals block and arrival n+1 releases everybody. After at most n arrivals, not all parties are waiting. |
| Runners.Create | ewoms/parallel/tasklets.hh:134-143 | A new runner has all workers alive, an empty queue and a locked gate, and satisfies the runner invariant. |
| Runners.Dispatch | ewoms/parallel/tasklets.hh:169-190 | Without workers, the state is unchanged and the tasklet is run inline its count times. With workers, nothing is run. The tasklet is appended at the tail, earlier entries and their counts are kept, and the gate is left open. |
| Runners.WorkerStep | ewoms/parallel/tasklets.hh:215-251 | A fused pass: the gate take and the queue section happen together. An end marker that is the only entry stops the worker and stays queued. An end marker with more entries behind it is the logic error. An empty queue is the only way to read a missing head. Any other head is handed out, has its count lowered by one, and is popped exactly at zero. The gate then stays open exactly when the queue is non-empty. |
| Runners.BarrierTasklet | ewoms/parallel/tasklets.hh:76-77 | A barrier tasklet's run count equals the number of workers. |
| Runners.Barrier | ewoms/parallel/tasklets.hh:195-207 | Without workers, a barrier changes nothing. Otherwise it appends a barrier tasklet, whose count is the worker count, and opens the gate. |
| Runners.Shutdown | ewoms/parallel/tasklets.hh:152-162 | Without workers, destruction changes nothing. Otherwise it appends a single end marker and opens the gate. |
| Traces.WorkApply | ewoms/parallel/tasklets.hh:217-251 | A worker facing a locked gate, or no worker at all, changes nothing. A pass runs at most one tasklet, never adds workers, and fails only as the fused pass fails. A worker leaves only by meeting a lone end marker, which stays queued, and a live worker at an open gate that meets one does leave. A live worker at an open gate facing an ordinary head hands it out and retires it, stays live, and leaves the gate open exactly when the queue is non-empty. |
| Traces.RunValid | ewoms/parallel/tasklets.hh:181-251 | With fused worker passes, every trace from a valid state keeps "gate open exactly when the queue is non-empty", and no trace ever reads the head of an empty queue. |
| Traces.Reachable | ewoms/parallel/tasklets.hh:134-251 | With fused worker passes, in every state reachable from construction the gate is open exactly when the queue is non-empty, and no worker reads the head of an empty queue. |
| Traces.RunSchedule | ewoms/parallel/tasklets.hh:169-254 | Over any trace whose dispatches are of ordinary tasklets with positive counts, the runs so far followed by the schedule of the queue equal the schedule of everything submitted. Each such tasklet is therefore run its count times, and none is run before every earlier one has left the queue. |
| Traces.FifoFromCreate | ewoms/parallel/tasklets.hh:169-254 | From construction, over traces that dispatch ordinary tasklets with positive counts, the runs are a prefix of the schedule of the submitted tasklets. Once the queue is empty, they are the whole schedule. |
| Traces.DrainPrefix | ewoms/parallel/tasklets.hh:215-256 | With a worker alive, k worker steps hand out the first k entries of the schedule of the queue's ordinary prefix. Once that schedule is used up, exactly the rest of the queue is left. |
| Traces.DrainAll | ewoms/parallel/tasklets.hh:215-256 | Enough worker steps to use up the prefix's schedule hand out exactly that schedule. They leave the rest of the queue, with the gate open exactly when that rest is non-empty. |
| Traces.Drain | ewoms/parallel/tasklets.hh:215-256 | Workers running while the gate is open hand out exactly the schedule of the queue. They leave the runner idle, with an empty queue and a closed gate. |
| Traces.EndMarkerPersists | ewoms/parallel/tasklets.hh:229-236 | Once the end marker is the only entry, every further worker step sees it and terminates. Nothing is run and the marker is never removed. |
| Traces.DispatchAfterShutdownFails | ewoms/parallel/tasklets.hh:231-233 | A dispatch after the end marker has reached the head makes the next worker fail with the logic error. |
| Traces.ShutdownJoinsAll | ewoms/parallel/tasklets.hh:152-162 | After the single end marker is queued, the workers run everything queued before it, in order. Then every worker terminates, and only the marker is left. |
| Traces.BarrierRendezvous | ewoms/parallel/tasklets.hh:195-207 | With all workers alive, the barrier tasklet is handed out n times (n = worker count), after every earlier run, and the queue ends empty. Taking each of its runs as one wait, plus the issuer's own wait, the counter receives n+1 arrivals, and only the last one releases everybody. |
| Traces.SyncEquivalence | ewoms/parallel/tasklets.hh:169-190 | Without workers, dispatching ordinary tasklets with positive counts runs each inline, its count times, in order. With workers, the same dispatches plus enough worker steps give the same runs and return the runner to its initial state. |
| Traces.NonPositiveCountNeverRetires | ewoms/parallel/tasklets.hh:239-243 | A queued ordinary tasklet with a count of zero or less is handed out on every worker step and never popped, and the queue behind it never moves. Inline, it is run zero times. |
| Races.Launch | ewoms/parallel/tasklets.hh:134-143 | At construction every worker waits at the gate, which is locked, and the queue is empty. |
| Races.TakeGateStep | ewoms/parallel/tasklets.hh:218-221 | A waiting worker gets past an open gate and locks it behind itself. With the gate locked or nobody waiting, nothing moves. The queue is never touched. |
| Races.QueueSection | ewoms/parallel/tasklets.hh:223-251 | The queue half of a pass: an empty queue is read as a missing head, an end marker with more behind it is the logic error, a lone end marker stops the worker and reopens the gate, and any other head is handed out and retired. Afterwards the gate is open exactly when it already was or the queue still holds something: this half never closes it, and leaves it as it was once the queue is empty. |
| Races.PlayOutSchedule | ewoms/parallel/tasklets.hh:169-251 | In the unfused loop, over any interleaving of dispatches of ordinary tasklets with positive counts, gate takes and queue sections that has not failed, the runs so far followed by the schedule of the queue equal the schedule of everything queued or dispatched. |
| Races.PlayOutFifo | ewoms/parallel/tasklets.hh:134-251 | From construction, in the unfused loop, the runs of any interleaving that dispatches only ordinary tasklets with positive counts and has not failed are a prefix of the schedule of the dispatched tasklets. Once the queue is empty, they are the whole schedule. |
| Races.PlayOutKeepsWork | ewoms/parallel/tasklets.hh:181-251 | In the unfused loop, whenever the queue holds something, the gate is open or some worker is past line 221 on its way to the queue. |
| Races.FusedPass | ewoms/parallel/tasklets.hh:221-251 | The fused worker pass of the main model is exactly the gate take followed at once by the queue section: the same failure, or the same runs and the same state. |
| Races.Race | ewoms/parallel/tasklets.hh:181-248 | With two workers, a dispatch landing between one worker's gate take and its queue section leaves the gate open on an empty queue. The next worker through the gate reads the head of the empty queue. |
| Objects.DispatchShared | ewoms/parallel/tasklets.hh:169-190 | Without workers, the object's id is run exactly its count times when that count is positive and never otherwise, and the object's own count stays at 0 (or untouched when it was not positive); the queue, the gate and every other object are unchanged. With workers, nothing runs, no object changes, the handle joins the tail behind the unchanged queue, and the gate is open. |
| Objects.PassShared | ewoms/parallel/tasklets.hh:217-251 | A parked or absent worker changes nothing. An empty queue is read as a missing head; a lone end marker stops the worker and stays queued; an end marker with more behind it is the logic error. Any other head object is handed out under its id and its own count is lowered by one in place; its handle is popped exactly when that count was 1, and the gate is then open exactly when the queue is non-empty. No other object changes and the queue never grows. |
| Objects.Simulation | ewoms/parallel/tasklets.hh:169-251 | When no object is dispatched twice, running calls on shared objects gives the same failure, or the same runs and the same queue contents, as the value model run on the objects' values. |
| Objects.RedispatchSync | ewoms/parallel/tasklets.hh:171-176 | Without workers, dispatching one object with a count of 1 twice runs it once, because the second dispatch finds its count used up. Two separate tasklets with the same values run twice. |
| Objects.StuckObject | ewoms/parallel/tasklets.hh:239-243 | Whatever its handle, a lone queued object whose count is used up is handed out on every pass, never popped, and its count only goes further down. |
| Objects.RedispatchAsync | ewoms/parallel/tasklets.hh:184-243 | With one worker, dispatching one object with a count of 1 twice queues it twice. The first pass pops one entry, and after that the object is handed out on every pass and never leaves the queue. Two separate tasklets with the same values are run twice and leave the queue empty. |

## Findings

| source | as written | input that shows it | evidently intended | confidence | as-written member | corrected member |
|---|---|---|---|---|---|---|
| ewoms/parallel/tasklets.hh:221-248 | A worker locks the runner mutex at line 221, outside the queue mutex. After its pop it unlocks the runner mutex only if the queue is still non-empty (247-248). A dispatch's unlock (186) can land between one worker's line 221 and its line 224. | Two workers. Dispatch A; worker 1 passes 221; dispatch B reopens the gate; worker 2 passes 221; worker 1 pops A and unlocks, since B is queued; worker 2 pops B and does not unlock. The gate is now open on an empty queue, and the next worker through line 221 calls `front()` on it (227). | A worker that gets past the gate always finds a tasklet at the head: the gate is open exactly when the queue is non-empty. | not executed; high | Races.Race | Runners.WorkerStep (fused pass; Traces.Reachable proves the gate invariant for it) |

## Left out

- Threads, `join`, and the blocking and waking of the mutexes and of the barrier's condition variable. These are concurrency. The model keeps only the lock-granular steps, and a parked worker is a step that changes nothing.
- Unlocking the runner mutex from a thread that does not own it, or when it is already unlocked (lines 186, 235, 248), is undefined for `std::mutex`. The gate is a boolean whose "unlock" is idempotent.
- The body of `run()` and any exception it throws. Tasklets are opaque ids, and a hand-out stands for the run that follows it outside the lock.
- Workers are not told apart. A worker step is taken by "some live worker", and the model does not stop a worker that is blocked in a barrier's wait from taking another step.
- The logic error (line 233) ends the trace with an error outcome. That the uncaught exception terminates the process is not modelled.
- Runners.WorkerStep: fuses the gate take at line 221 with the queue section at lines 224-251. The source lets a dispatch and another worker's gate take come between them. `Races` models the unfused loop, and the resulting race is listed under "## Findings".
- Traces.RunValid: holds for traces of fused worker passes only. With the unfused loop of the source, the interleaving in `Races.Race` leaves the gate open on an empty queue and reaches `front()` on it.
- Traces.Reachable: holds for traces of fused worker passes only, for the same reason as `Traces.RunValid`. For the unfused loop, only the weaker `Races.PlayOutKeepsWork` holds.
- Runners.Dispatch: each dispatch is modelled as a fresh object, whose count is copied into the queue. The source shares one object between every queue entry and inline run that reaches it. `Objects.Simulation` shows that the two agree when no object is dispatched twice. `Objects.RedispatchSync` and `Objects.RedispatchAsync` show the difference when one is.
- Traces.RunSchedule: covers fused worker passes; the unfused loop of the source is covered by `Races.PlayOutSchedule`, which has no barrier or destruction actions. It also covers only traces whose dispatches are of ordinary tasklets with a positive count. `TaskletInterface` accepts any `int` count (line 47), and a queued tasklet with a count of 0 or less is never popped (`Traces.NonPositiveCountNeverRetires`), so no schedule invariant holds for it.
- Traces.FifoFromCreate: covers fused worker passes; `Races.PlayOutFifo` states it for the unfused loop. It also covers only dispatches of ordinary tasklets with a positive count, for the same reason as `Traces.RunSchedule`.
- Races.PlayOutFifo: covers only dispatches of ordinary tasklets with a positive count, for the same reason as `Traces.RunSchedule` (`Traces.NonPositiveCountNeverRetires`), and says nothing after the first failure.
- Objects.PassShared: fuses the gate take at line 221 with the queue section at lines 224-251, as `Runners.WorkerStep` does, so `Objects.Simulation` relates two fused models. The race between the two halves is modelled only on values, in `Races`.
- Races.PlayOutSchedule: covers only dispatches of ordinary tasklets with a positive count, for the same reason as `Traces.RunSchedule`, and says nothing after the first failure.
- Traces.SyncEquivalence: covers only ordinary tasklets with a positive count, each dispatched once. For a count of 0 or less the two modes differ (`Traces.NonPositiveCountNeverRetires`), and for a re-dispatched object they differ too (`Objects.RedispatchSync`, `Objects.RedispatchAsync`).
- Traces.BarrierRendezvous: shows n hand-outs of the barrier tasklet, not one hand-out to each of the n workers, because workers are not told apart. The arrival counter is advanced by counting those hand-outs; no worker step performs the wait itself. The barrier tasklet's id is taken to be different from the ids already queued, as a fresh `make_shared` object is (line 203).
- Traces.NonPositiveCountNeverRetires: "never popped" relies on unbounded integers. In the source the `int` count reaches `INT_MIN` after at most 2^31 hand-outs, and the next decrement (line 55) is undefined behaviour.
- Objects.StuckObject: its falling count relies on unbounded integers, for the same reason as `Traces.NonPositiveCountNeverRetires`.
- Barriers.Wait: does not model the 32-bit `unsigned` wrap-around of `numWaiting_` and of `numWorkers_ + 1`. The counts are bounded by the number of threads.
- Runners.BarrierTasklet: does not model converting the `unsigned` worker count to the `int` run count (line 77). It would only matter beyond `INT_MAX` workers.
- The issuing thread's own `wait()` in `barrier()` (line 206) is modelled by the barrier counter (`Barriers`), not as a step of the runner trace.
- The destructor's `join` of every worker is modelled by the end marker terminating every worker (`Traces.ShutdownJoinsAll`). The worker that sees the marker reopens the gate (line 235), so one marker stops a pool of any size.
- The unfused loop in `Races` and the shared objects in `Objects` cover dispatch and worker passes. Barriers and destruction are modelled only in the main model, where they are dispatches of fresh tasklets.

=== FILE: barriers.dfy ===
/** The wait counter of a barrier tasklet.

    A barrier is a tasklet whose run count is the number of workers; each of
    the worker runs, plus the thread that issued the barrier, calls `wait`.
    The counter of arrivals decides when everybody is released.
 */
module Barriers {

  datatype BarrierState = BarrierState(numWorkers: nat, numWaiting: nat)

  /** A freshly created barrier: nobody has arrived yet. */
  function NewBarrier(numWorkers: nat): (b: BarrierState)
    ensures b.numWorkers == numWorkers
    ensures b.numWaiting == 0 && !AllWaiting(b)
  {
    BarrierState(numWorkers, 0)
  }

  /** Every worker and the issuing thread have arrived. */
  predicate AllWaiting(b: BarrierState) {
    b.numWaiting >= b.numWorkers + 1
  }

  datatype WaitResult = WaitResult(state: BarrierState, releasesAll: bool)

  /** One arrival: count it, and either wake everybody (this was the last
      party) or block until the last party arrives. */
  function Wait(b: BarrierState): (res: WaitResult)
    ensures res.state.numWorkers == b.numWorkers
    ensures res.state.numWaiting == b.numWaiting + 1
    ensures res.releasesAll <==> b.numWaiting + 1 >= b.numWorkers + 1
  {
    var b' := b.(numWaiting := b.numWaiting + 1);
    WaitResult(b', AllWaiting(b'))
  }

  datatype ArrivalsResult = ArrivalsResult(state: BarrierState, released: seq<bool>)

  /** `k` successive arrivals; `released[i]` tells whether the (i+1)-th
      arrival found everybody there. */
  function Arrivals(b: BarrierState, k: nat): (res: ArrivalsResult)
    decreases k
  {
    if k == 0 then ArrivalsResult(b, [])
    else
      var w := Wait(b);
      var rest := Arrivals(w.state, k - 1);
      ArrivalsResult(rest.state, [w.releasesAll] + rest.released)
  }

  /** After `k` arrivals the counter has grown by exactly `k`, and the
      (i+1)-th arrival releases exactly when it brings the count to at least
      one more than the number of workers. */
  lemma {:induction false} ArrivalsCount(b: BarrierState, k: nat)
    ensures Arrivals(b, k).state.numWaiting == b.numWaiting + k
    ensures Arrivals(b, k).state.numWorkers == b.numWorkers
    ensures |Arrivals(b, k).released| == k
    ensures forall i :: 0 <= i < k ==>
              (Arrivals(b, k).released[i] <==> b.numWaiting + i + 1 >= b.numWorkers + 1)
    decreases k
  {
    if k > 0 {
      var w := Wait(b);
      ArrivalsCount(w.state, k - 1);
      var r := Arrivals(b, k).released;
      forall i | 0 <= i < k
        ensures r[i] <==> b.numWaiting + i + 1 >= b.numWorkers + 1
      {
        if i > 0 {
          assert r[i] == Arrivals(w.state, k - 1).released[i - 1];
        }
      }
    }
  }

  /** On a fresh barrier of `n` workers, the first `n` arrivals block and the
      (n+1)-th, the last party, releases everybody. */
  lemma ReleasedOnLastArrival(n: nat)
    ensures Arrivals(NewBarrier(n), n + 1).released == seq(n, _ => false) + [true]
    ensures AllWaiting(Arrivals(NewBarrier(n), n + 1).state)
    ensures forall k :: 0 <= k <= n ==> !AllWaiting(Arrivals(NewBarrier(n), k).state)
  {
    var b := NewBarrier(n);
    ArrivalsCount(b, n + 1);
    forall k | 0 <= k <= n
      ensures !AllWaiting(Arrivals(b, k).state)
    {
      ArrivalsCount(b, k);
    }
  }
}

=== FILE: objects.dfy ===
/** Tasklets as shared objects.

    The runner holds `shared_ptr`s: the queue holds handles, and the run
    count is a field of the one object that every handle to it reaches,
    lowered in place (lines 54-55, 174, 239). The rest of the model queues
    tasklet values instead. The two agree as long as no object is dispatched
    twice (`Simulation`). This module also shows what goes different when
    one object is dispatched twice (`RedispatchSync`, `RedispatchAsync`).
 */
module Objects {
  import opened Tasklets
  import opened Runners
  import opened Traces

  /** A reference to a tasklet object. */
  type Handle = nat

  /** The tasklet objects, as they are now. */
  type Heap = map<Handle, Tasklet>

  datatype Shared = Shared(numWorkers: nat, live: nat, queue: seq<Handle>, gate: bool, heap: Heap)

  datatype Call =
    | DispatchObject(h: Handle)  // dispatch(ptr) with a handle to an existing object
    | WorkerPass                 // one pass of some worker's loop

  datatype SharedOutcome =
    | SOk(shared: Shared, runs: seq<TaskletId>)
    | SCrashed(error: RunnerError)

  predicate Allocated(heap: Heap, q: seq<Handle>) {
    forall k :: 0 <= k < |q| ==> q[k] in heap
  }

  predicate Distinct(q: seq<Handle>) {
    forall i, j :: 0 <= i < j < |q| ==> q[i] != q[j]
  }

  /** The tasklets the handles of a queue reach. */
  function Deref(heap: Heap, q: seq<Handle>): (ts: seq<Tasklet>)
    requires Allocated(heap, q)
    ensures |ts| == |q|
    ensures forall k :: 0 <= k < |q| ==> ts[k] == heap[q[k]]
  {
    if q == [] then [] else [heap[q[0]]] + Deref(heap, q[1..])
  }

  /** The runner of the value model that a shared-object state stands for. */
  function View(s: Shared): (r: Runner)
    requires Allocated(s.heap, s.queue)
    ensures r.numWorkers == s.numWorkers && r.live == s.live && r.gate == s.gate
    ensures r.queue == Deref(s.heap, s.queue)
  {
    Runner(s.numWorkers, s.live, Deref(s.heap, s.queue), s.gate)
  }

  /** `dispatch` on a handle: without workers the object's own count is run
      down to zero inline; with workers the handle is queued. */
  function DispatchShared(s: Shared, h: Handle): (o: SharedOutcome)
    requires h in s.heap
    ensures o.SOk?
    ensures o.shared.heap.Keys == s.heap.Keys
    ensures o.shared.numWorkers == s.numWorkers && o.shared.live == s.live
    ensures forall x :: x in s.heap && x != h ==> o.shared.heap[x] == s.heap[x]
    // Without workers: the object's own count is run down to zero in place.
    ensures s.numWorkers == 0 ==>
              && o.shared.queue == s.queue && o.shared.gate == s.gate
              && o.shared.heap[h].id == s.heap[h].id && o.shared.heap[h].kind == s.heap[h].kind
              && o.shared.heap[h].refCount == (if s.heap[h].refCount > 0 then 0 else s.heap[h].refCount)
              && |o.runs| == (if s.heap[h].refCount > 0 then s.heap[h].refCount else 0)
              && (forall i :: 0 <= i < |o.runs| ==> o.runs[i] == s.heap[h].id)
    // With workers: a handle to the object joins the tail and nothing runs.
    ensures s.numWorkers > 0 ==>
              && o.shared.heap == s.heap && o.runs == [] && o.shared.gate
              && |o.shared.queue| == |s.queue| + 1
              && o.shared.queue[..|s.queue|] == s.queue && o.shared.queue[|s.queue|] == h
  {
    if s.numWorkers == 0 then
      var res := RunInline(s.heap[h]);
      SOk(s.(heap := s.heap[h := res.tasklet]), res.ran)
    else
      SOk(s.(queue := s.queue + [h], gate := true), [])
  }

  /** One fused worker pass over shared objects: the head object's count is
      lowered in place, and its handle is popped once that count is zero. */
  function PassShared(s: Shared): (o: SharedOutcome)
    requires Allocated(s.heap, s.queue)
    ensures o.SOk? ==> o.shared.heap.Keys == s.heap.Keys && o.shared.numWorkers == s.numWorkers
    ensures o.SOk? ==> |o.shared.queue| <= |s.queue|
    ensures o.SOk? ==> forall k :: 0 <= k < |o.shared.queue| ==> o.shared.queue[k] in s.queue
    ensures o.SOk? ==> forall x :: x in s.heap && (s.queue == [] || x != s.queue[0]) ==>
                                     o.shared.heap[x] == s.heap[x]
    ensures !s.gate || s.live == 0 ==> o == SOk(s, [])
    ensures s.gate && s.live > 0 && s.queue == [] ==> o == SCrashed(FrontOfEmptyQueue)
    ensures s.gate && s.live > 0 && |s.queue| > 1 && s.heap[s.queue[0]].IsEndMarker() ==>
              o == SCrashed(NotAllTaskletsExecuted)
    ensures s.gate && s.live > 0 && |s.queue| == 1 && s.heap[s.queue[0]].IsEndMarker() ==>
              o == SOk(s.(live := s.live - 1), [])
    ensures s.gate && s.live > 0 && s.queue != [] && !s.heap[s.queue[0]].IsEndMarker() ==>
              var h := s.queue[0];
              && o.SOk? && o.runs == [s.heap[h].id]
              && o.shared.heap[h].id == s.heap[h].id && o.shared.heap[h].kind == s.heap[h].kind
              && o.shared.heap[h].refCount == s.heap[h].refCount - 1
              && o.shared.numWorkers == s.numWorkers && o.shared.live == s.live
              && (s.heap[h].refCount == 1 ==> o.shared.queue == s.queue[1..])
              && (s.heap[h].refCount != 1 ==> o.shared.queue == s.queue)
              && (o.shared.gate <==> |o.shared.queue| > 0)
  {
    if !s.gate || s.live == 0 then SOk(s, [])
    else if s.queue == [] then SCrashed(FrontOfEmptyQueue)
    else
      var h := s.queue[0];
      var t := s.heap[h];
      if t.IsEndMarker() then
        if |s.queue| > 1 then SCrashed(NotAllTaskletsExecuted)
        else SOk(s.(live := s.live - 1, gate := true), [])
      else
        var t' := t.Dereference();
        var q' := if t'.refCount == 0 then s.queue[1..] else s.queue;
        SOk(s.(heap := s.heap[h := t'], queue := q', gate := |q'| > 0), [t.id])
  }

  /** Every handle a state or a call sequence uses names an object. */
  predicate Closed(s: Shared, calls: seq<Call>) {
    && Allocated(s.heap, s.queue)
    && forall i :: 0 <= i < |calls| && calls[i].DispatchObject? ==> calls[i].h in s.heap
  }

  function CallShared(s: Shared, c: Call): (o: SharedOutcome)
    requires Allocated(s.heap, s.queue) && (c.DispatchObject? ==> c.h in s.heap)
    ensures o.SOk? ==> o.shared.heap.Keys == s.heap.Keys && Allocated(o.shared.heap, o.shared.queue)
  {
    match c
    case DispatchObject(h) => DispatchShared(s, h)
    case WorkerPass => PassShared(s)
  }

  function RunShared(s: Shared, calls: seq<Call>): (o: SharedOutcome)
    requires Closed(s, calls)
    decreases |calls|
  {
    if calls == [] then SOk(s, [])
    else
      match CallShared(s, calls[0])
      case SCrashed(e) => SCrashed(e)
      case SOk(s1, x) =>
        match RunShared(s1, calls[1..])
        case SCrashed(e) => SCrashed(e)
        case SOk(s2, y) => SOk(s2, x + y)
  }

  /** The value-model trace that dispatches the objects' current values. */
  function ToSteps(heap: Heap, calls: seq<Call>): (steps: seq<Step>)
    requires forall i :: 0 <= i < |calls| && calls[i].DispatchObject? ==> calls[i].h in heap
    ensures |steps| == |calls|
    decreases |calls|
  {
    if calls == [] then [] else [StepOf(heap, calls[0])] + ToSteps(heap, calls[1..])
  }

  /** A call as a value-model step: a dispatch submits the object's
      current value. */
  function StepOf(heap: Heap, c: Call): (s: Step)
    requires c.DispatchObject? ==> c.h in heap
  {
    if c.DispatchObject? then Submit(heap[c.h]) else Work
  }

  /** Every object is dispatched at most once: the dispatched handles are
      pairwise distinct and none of them is already queued, and the queue
      holds no handle twice. */
  predicate Unaliased(s: Shared, calls: seq<Call>) {
    && Closed(s, calls)
    && Distinct(s.queue)
    && (s.numWorkers == 0 ==> s.queue == [])
    && (forall i, k :: 0 <= i < |calls| && 0 <= k < |s.queue| && calls[i].DispatchObject? ==>
          calls[i].h != s.queue[k])
    && (forall i, j :: 0 <= i < j < |calls| && calls[i].DispatchObject? && calls[j].DispatchObject? ==>
          calls[i].h != calls[j].h)
  }

  /** The shared-object outcome and the value-model outcome agree. */
  predicate Agree(o: SharedOutcome, v: Outcome) {
    match o
    case SCrashed(e) => v == Crashed(e)
    case SOk(s, runs) => Allocated(s.heap, s.queue) && v == Ok(View(s), runs)
  }

  // ---------------------------------------------------------------------
  // Without aliasing, values and objects agree

  lemma {:induction false} DerefFrame(heap: Heap, x: Handle, v: Tasklet, q: seq<Handle>)
    requires Allocated(heap, q) && x !in q
    ensures Allocated(heap[x := v], q)
    ensures Deref(heap[x := v], q) == Deref(heap, q)
  {
  }

  lemma DerefAppend(heap: Heap, q: seq<Handle>, h: Handle)
    requires Allocated(heap, q) && h in heap
    ensures Allocated(heap, q + [h])
    ensures Deref(heap, q + [h]) == Deref(heap, q) + [heap[h]]
  {
  }

  lemma {:induction false} ToStepsFrame(heap: Heap, heap': Heap, calls: seq<Call>)
    requires forall i :: 0 <= i < |calls| && calls[i].DispatchObject? ==>
               calls[i].h in heap && calls[i].h in heap' && heap'[calls[i].h] == heap[calls[i].h]
    ensures ToSteps(heap', calls) == ToSteps(heap, calls)
    decreases |calls|
  {
    if calls != [] {
      ToStepsFrame(heap, heap', calls[1..]);
    }
  }

  /** A worker pass over objects whose handles are all distinct is the
      value model's worker pass. */
  lemma PassSimulates(s: Shared)
    requires Allocated(s.heap, s.queue) && Distinct(s.queue)
    ensures Agree(PassShared(s), WorkApply(View(s)))
    ensures PassShared(s).SOk? ==> Distinct(PassShared(s).shared.queue)
  {
    if s.gate && s.live > 0 && s.queue != [] && !s.heap[s.queue[0]].IsEndMarker() {
      HandOutSimulates(s.heap, s.queue);
    }
  }

  /** Lowering the head object's count in place and popping its handle at
      zero is `Retire` on the tasklets the queue reaches, provided the head
      object is queued only once. */
  lemma HandOutSimulates(heap: Heap, q: seq<Handle>)
    requires Allocated(heap, q) && Distinct(q) && q != []
    ensures var t' := heap[q[0]].Dereference();
            var q' := if t'.refCount == 0 then q[1..] else q;
            && Allocated(heap[q[0] := t'], q')
            && Deref(heap[q[0] := t'], q') == Retire(Deref(heap, q))
  {
    var h := q[0];
    var t' := heap[h].Dereference();
    var v := Deref(heap, q);
    assert h !in q[1..];
    DerefFrame(heap, h, t', q[1..]);
    assert Deref(heap, q[1..]) == v[1..];
    if t'.refCount != 0 {
      assert Deref(heap[h := t'], q) == [t'] + Deref(heap[h := t'], q[1..]);
    }
  }

  /** A dispatch of an object that is not queued is the value model's
      dispatch of the object's current value. */
  lemma DispatchSimulates(s: Shared, h: Handle)
    requires Allocated(s.heap, s.queue) && Distinct(s.queue) && h in s.heap && h !in s.queue
    requires s.numWorkers == 0 ==> s.queue == []
    ensures Agree(DispatchShared(s, h), Apply(View(s), Submit(s.heap[h])))
    ensures Distinct(DispatchShared(s, h).shared.queue)
  {
    if s.numWorkers > 0 {
      DerefAppend(s.heap, s.queue, h);
    }
  }

  /** One call on an object that is not already queued, over a queue
      without repeated handles, is the value model's step. */
  lemma CallSimulates(s: Shared, c: Call)
    requires Allocated(s.heap, s.queue) && Distinct(s.queue)
    requires s.numWorkers == 0 ==> s.queue == []
    requires c.DispatchObject? ==> c.h in s.heap && c.h !in s.queue
    ensures Agree(CallShared(s, c), Apply(View(s), StepOf(s.heap, c)))
    ensures CallShared(s, c).SOk? ==> Distinct(CallShared(s, c).shared.queue)
  {
    if c.DispatchObject? {
      DispatchSimulates(s, c.h);
    } else {
      PassSimulates(s);
    }
  }

  /** Without aliasing, running calls on shared objects is running the
      value model on the objects' values: the same failure, or the same runs
      and a state whose queue reaches exactly the value model's queue. */
  lemma {:induction false} Simulation(s: Shared, calls: seq<Call>)
    requires Unaliased(s, calls)
    ensures Agree(RunShared(s, calls), Run(View(s), ToSteps(s.heap, calls)))
    decreases |calls|
  {
    if calls != [] {
      var o := CallShared(s, calls[0]);
      var v := Apply(View(s), StepOf(s.heap, calls[0]));
      assert Agree(o, v) && (o.SOk? ==> Distinct(o.shared.queue)) by {
        FirstCall(s, calls);
      }
      if o.SOk? {
        var s1 := o.shared;
        assert Unaliased(s1, calls[1..]) && ToSteps(s1.heap, calls[1..]) == ToSteps(s.heap, calls[1..]) by {
          AfterFirstCall(s, calls);
        }
        Simulation(s1, calls[1..]);
        AgreeCompose(s, calls, s1, o.runs);
      } else {
        assert Run(View(s), ToSteps(s.heap, calls)) == v by {
          assert ToSteps(s.heap, calls)[0] == StepOf(s.heap, calls[0]);
        }
      }
    }
  }

  lemma FirstCall(s: Shared, calls: seq<Call>)
    requires Unaliased(s, calls) && calls != []
    ensures Agree(CallShared(s, calls[0]), Apply(View(s), StepOf(s.heap, calls[0])))
    ensures CallShared(s, calls[0]).SOk? ==> Distinct(CallShared(s, calls[0]).shared.queue)
  {
    var c := calls[0];
    assert c.DispatchObject? ==> c.h !in s.queue;
    CallSimulates(s, c);
  }

  /** After the first call, the rest of the calls are still unaliased, and
      they still dispatch the values they dispatched before. */
  lemma AfterFirstCall(s: Shared, calls: seq<Call>)
    requires Unaliased(s, calls) && calls != []
    requires CallShared(s, calls[0]).SOk? && Distinct(CallShared(s, calls[0]).shared.queue)
    ensures Closed(CallShared(s, calls[0]).shared, calls[1..])
    ensures Unaliased(CallShared(s, calls[0]).shared, calls[1..])
    ensures ToSteps(CallShared(s, calls[0]).shared.heap, calls[1..]) == ToSteps(s.heap, calls[1..])
  {
    var c := calls[0];
    var rest := calls[1..];
    assert calls == [c] + rest;
    FrameAfterCall(s, c, rest);
    ToStepsFrame(s.heap, CallShared(s, c).shared.heap, rest);
    UnaliasedAfterCall(s, c, rest);
  }

  /** Gluing the first call to the rest of a run, on both sides. */
  lemma AgreeCompose(s: Shared, calls: seq<Call>, s1: Shared, x: seq<TaskletId>)
    requires Closed(s, calls) && calls != []
    requires CallShared(s, calls[0]) == SOk(s1, x)
    requires Agree(SOk(s1, x), Apply(View(s), StepOf(s.heap, calls[0])))
    requires Closed(s1, calls[1..])
    requires Agree(RunShared(s1, calls[1..]), Run(View(s1), ToSteps(s.heap, calls[1..])))
    ensures Agree(RunShared(s, calls), Run(View(s), ToSteps(s.heap, calls)))
  {
    var steps := ToSteps(s.heap, calls);
    assert steps[0] == StepOf(s.heap, calls[0]) && steps[1..] == ToSteps(s.heap, calls[1..]);
    var w := Run(View(s1), steps[1..]);
    assert Run(View(s), steps) == Prepend(x, w);
    if w.Ok? {
      assert RunShared(s1, calls[1..]).SOk?;
    }
  }

  /** A call leaves alone every object that a later dispatch names. */
  lemma FrameAfterCall(s: Shared, c: Call, rest: seq<Call>)
    requires Unaliased(s, [c] + rest) && (c.DispatchObject? ==> c.h in s.heap)
    requires CallShared(s, c).SOk?
    ensures forall i :: 0 <= i < |rest| && rest[i].DispatchObject? ==>
              rest[i].h in s.heap && rest[i].h in CallShared(s, c).shared.heap
              && CallShared(s, c).shared.heap[rest[i].h] == s.heap[rest[i].h]
  {
    var calls := [c] + rest;
    forall i | 0 <= i < |rest| && rest[i].DispatchObject?
      ensures rest[i].h in s.heap && rest[i].h in CallShared(s, c).shared.heap
              && CallShared(s, c).shared.heap[rest[i].h] == s.heap[rest[i].h]
    {
      assert calls[i + 1] == rest[i];
      assert calls[0] == c;
      if s.queue != [] {
        assert rest[i].h != s.queue[0];
      }
    }
  }

  /** After a call, the remaining calls still dispatch each object at most
      once and never one that is queued. */
  lemma UnaliasedAfterCall(s: Shared, c: Call, rest: seq<Call>)
    requires Unaliased(s, [c] + rest) && (c.DispatchObject? ==> c.h in s.heap)
    requires CallShared(s, c).SOk? && Distinct(CallShared(s, c).shared.queue)
    ensures Unaliased(CallShared(s, c).shared, rest)
  {
    var calls := [c] + rest;
    var s1 := CallShared(s, c).shared;
    assert calls[0] == c;
    forall i | 0 <= i < |rest| && rest[i].DispatchObject?
      ensures rest[i].h in s1.heap
    {
      assert calls[i + 1] == rest[i];
    }
    forall i, k | 0 <= i < |rest| && 0 <= k < |s1.queue| && rest[i].DispatchObject?
      ensures rest[i].h != s1.queue[k]
    {
      assert calls[i + 1] == rest[i];
      if c.DispatchObject? && s.numWorkers > 0 && k == |s.queue| {
        assert s1.queue[k] == c.h;
      } else {
        assert s1.queue[k] in s.queue;
      }
    }
    forall i, j | 0 <= i < j < |rest| && rest[i].DispatchObject? && rest[j].DispatchObject?
      ensures rest[i].h != rest[j].h
    {
      assert calls[i + 1] == rest[i] && calls[j + 1] == rest[j];
    }
  }

  // ---------------------------------------------------------------------
  // One object dispatched twice

  /** Without workers, dispatching one object twice runs it once: the
      first dispatch uses up its count, which the second one finds at
      zero. Two tasklets with the same values run twice. */
  lemma RedispatchSync()
    ensures var t := Tasklet(7, 1, Plain);
            var s := Shared(0, 0, [], false, map[0 := t]);
            && RunShared(s, [DispatchObject(0), DispatchObject(0)])
               == SOk(s.(heap := map[0 := t.(refCount := 0)]), [7])
            && Run(Create(0), Submits([t, t])) == Ok(Create(0), [7, 7])
  {
    var t := Tasklet(7, 1, Plain);
    var s := Shared(0, 0, [], false, map[0 := t]);
    var s1 := s.(heap := map[0 := t.(refCount := 0)]);
    assert RunInline(t).ran == [7];
    assert RunInline(t.(refCount := 0)).ran == [];
    assert s.heap[0 := t.(refCount := 0)] == s1.heap;
    assert s1.heap[0 := t.(refCount := 0)] == s1.heap;
    assert [DispatchObject(0), DispatchObject(0)][1..] == [DispatchObject(0)];
    assert [DispatchObject(0)][1..] == [];
    assert [7] + ([] + []) == [7];
    RunSubmitsSync(Create(0), [t, t]);
    assert [t, t][1..] == [t];
    assert Schedule([t, t]) == [7] + Schedule([t]);
    assert Schedule([t]) == [7] + Schedule([]);
  }

  function Passes(k: nat): (calls: seq<Call>)
    ensures |calls| == k
  {
    if k == 0 then [] else [WorkerPass] + Passes(k - 1)
  }

  /** A lone queued object whose count is used up is handed out by every
      pass and never popped; its count only goes further down. */
  lemma {:induction false} StuckObject(s: Shared, h: Handle, k: nat)
    requires s.queue == [h] && h in s.heap && s.gate && s.live > 0
    requires !s.heap[h].IsEndMarker() && s.heap[h].refCount <= 0
    ensures Closed(s, Passes(k))
    ensures RunShared(s, Passes(k))
            == SOk(s.(heap := s.heap[h := s.heap[h].(refCount := s.heap[h].refCount - k)]),
                   Repeat(s.heap[h].id, k))
    decreases k
  {
    if k > 0 {
      var t := s.heap[h];
      var s1 := s.(heap := s.heap[h := t.(refCount := t.refCount - 1)]);
      assert PassShared(s) == SOk(s1, [t.id]);
      assert Passes(k)[1..] == Passes(k - 1);
      StuckObject(s1, h, k - 1);
      assert s1.heap[h := s1.heap[h].(refCount := s1.heap[h].refCount - (k - 1))]
             == s.heap[h := t.(refCount := t.refCount - k)];
    }
  }

  /** The object of `RedispatchAsync` once its count is used up. */
  lemma UsedUpObject(k: nat)
    ensures Closed(Shared(1, 1, [0], true, map[0 := Tasklet(7, 0, Plain)]), Passes(k))
    ensures RunShared(Shared(1, 1, [0], true, map[0 := Tasklet(7, 0, Plain)]), Passes(k))
            == SOk(Shared(1, 1, [0], true, map[0 := Tasklet(7, -(k as int), Plain)]), Repeat(7, k))
  {
    var s3 := Shared(1, 1, [0], true, map[0 := Tasklet(7, 0, Plain)]);
    StuckObject(s3, 0, k);
    assert s3.heap[0 := s3.heap[0].(refCount := s3.heap[0].refCount - k)]
           == map[0 := Tasklet(7, -(k as int), Plain)];
  }

  /** With a worker, dispatching one object twice queues it twice. The
      first hand-out drops the shared count to zero and pops one entry; the
      other entry then reaches that used-up object, which every later pass
      hands out again and never pops. Two tasklets with the same values are
      run twice and leave the queue empty. */
  lemma RedispatchAsync(k: nat)
    ensures var t := Tasklet(7, 1, Plain);
            var s := Shared(1, 1, [], false, map[0 := t]);
            var calls := [DispatchObject(0), DispatchObject(0), WorkerPass] + Passes(k);
            && Closed(s, calls)
            && RunShared(s, calls)
               == SOk(Shared(1, 1, [0], true, map[0 := t.(refCount := -(k as int))]), [7] + Repeat(7, k))
            && Run(Create(1), Submits([t, t]) + Works(2)) == Ok(Create(1), [7, 7])
  {
    var t := Tasklet(7, 1, Plain);
    var sk := Shared(1, 1, [0], true, map[0 := Tasklet(7, -(k as int), Plain)]);
    UsedUpObject(k);
    var s := Shared(1, 1, [], false, map[0 := t]);
    var calls := [DispatchObject(0), DispatchObject(0), WorkerPass] + Passes(k);
    assert Closed(s, calls) && RunShared(s, calls) == SOk(sk, [7] + Repeat(7, k)) by {
      QueuedTwice(Passes(k), sk, Repeat(7, k));
    }
    assert Run(Create(1), Submits([t, t]) + Works(2)) == Ok(Create(1), [7, 7]) by {
      TwinValues(t);
    }
  }

  /** The first three calls of `RedispatchAsync`: two dispatches of the
      same object and one pass, which pops one of its two entries. */
  lemma QueuedTwice(rest: seq<Call>, s': Shared, y: seq<TaskletId>)
    requires Closed(Shared(1, 1, [0], true, map[0 := Tasklet(7, 0, Plain)]), rest)
    requires RunShared(Shared(1, 1, [0], true, map[0 := Tasklet(7, 0, Plain)]), rest) == SOk(s', y)
    ensures Closed(Shared(1, 1, [], false, map[0 := Tasklet(7, 1, Plain)]),
                   [DispatchObject(0), DispatchObject(0), WorkerPass] + rest)
    ensures RunShared(Shared(1, 1, [], false, map[0 := Tasklet(7, 1, Plain)]),
                      [DispatchObject(0), DispatchObject(0), WorkerPass] + rest) == SOk(s', [7] + y)
  {
    var s0 := Shared(1, 1, [], false, map[0 := Tasklet(7, 1, Plain)]);
    var s2 := Shared(1, 1, [0, 0], true, map[0 := Tasklet(7, 1, Plain)]);
    var r2 := [WorkerPass] + rest;
    var all := [DispatchObject(0)] + ([DispatchObject(0)] + r2);
    assert Closed(s2, r2) && RunShared(s2, r2) == SOk(s', [7] + y) by {
      PopOneOfTwo(rest, s', y);
    }
    assert Closed(s0, all) && RunShared(s0, all) == SOk(s', [7] + y) by {
      DispatchTwice(r2, s', [7] + y);
    }
    ThreeCalls(rest);
  }

  lemma ThreeCalls(rest: seq<Call>)
    ensures [DispatchObject(0), DispatchObject(0), WorkerPass] + rest
            == [DispatchObject(0)] + ([DispatchObject(0)] + ([WorkerPass] + rest))
  {
  }

  /** With the object queued twice, one pass hands it out, drops its count
      to zero and pops one of the two entries. */
  lemma PopOneOfTwo(rest: seq<Call>, s': Shared, y: seq<TaskletId>)
    requires Closed(Shared(1, 1, [0], true, map[0 := Tasklet(7, 0, Plain)]), rest)
    requires RunShared(Shared(1, 1, [0], true, map[0 := Tasklet(7, 0, Plain)]), rest) == SOk(s', y)
    ensures Closed(Shared(1, 1, [0, 0], true, map[0 := Tasklet(7, 1, Plain)]), [WorkerPass] + rest)
    ensures RunShared(Shared(1, 1, [0, 0], true, map[0 := Tasklet(7, 1, Plain)]), [WorkerPass] + rest)
            == SOk(s', [7] + y)
  {
    var t := Tasklet(7, 1, Plain);
    var s2 := Shared(1, 1, [0, 0], true, map[0 := t]);
    var s3 := Shared(1, 1, [0], true, map[0 := Tasklet(7, 0, Plain)]);
    assert CallShared(s2, WorkerPass) == SOk(s3, [7]) by {
      assert [0, 0][1..] == [0];
      assert map[0 := t][0 := t.Dereference()] == map[0 := Tasklet(7, 0, Plain)];
    }
    RunSharedCons(s2, WorkerPass, rest, s3, [7], s', y);
  }

  /** With workers, each dispatch of the object queues one more handle to
      it. */
  lemma DispatchTwice(r2: seq<Call>, s': Shared, z: seq<TaskletId>)
    requires Closed(Shared(1, 1, [0, 0], true, map[0 := Tasklet(7, 1, Plain)]), r2)
    requires RunShared(Shared(1, 1, [0, 0], true, map[0 := Tasklet(7, 1, Plain)]), r2) == SOk(s', z)
    ensures Closed(Shared(1, 1, [], false, map[0 := Tasklet(7, 1, Plain)]),
                   [DispatchObject(0)] + ([DispatchObject(0)] + r2))
    ensures RunShared(Shared(1, 1, [], false, map[0 := Tasklet(7, 1, Plain)]),
                      [DispatchObject(0)] + ([DispatchObject(0)] + r2)) == SOk(s', z)
  {
    var heap := map[0 := Tasklet(7, 1, Plain)];
    var s := Shared(1, 1, [], false, heap);
    var s1 := Shared(1, 1, [0], true, heap);
    var s2 := Shared(1, 1, [0, 0], true, heap);
    assert CallShared(s1, DispatchObject(0)) == SOk(s2, []) by {
      assert [0] + [0] == [0, 0];
    }
    RunSharedCons(s1, DispatchObject(0), r2, s2, [], s', z);
    assert [] + z == z;
    assert CallShared(s, DispatchObject(0)) == SOk(s1, []) by {
      assert [] + [0] == [0];
    }
    RunSharedCons(s, DispatchObject(0), [DispatchObject(0)] + r2, s1, [], s', z);
  }

  /** A call sequence whose first call succeeds and whose remainder
      succeeds. */
  lemma RunSharedCons(s: Shared, c: Call, rest: seq<Call>, s1: Shared, x: seq<TaskletId>,
                      s2: Shared, y: seq<TaskletId>)
    requires Allocated(s.heap, s.queue) && (c.DispatchObject? ==> c.h in s.heap)
    requires CallShared(s, c) == SOk(s1, x)
    requires Closed(s1, rest) && RunShared(s1, rest) == SOk(s2, y)
    ensures Closed(s, [c] + rest)
    ensures RunShared(s, [c] + rest) == SOk(s2, x + y)
  {
    var calls := [c] + rest;
    assert calls[0] == c && calls[1..] == rest;
    forall i | 0 <= i < |calls| && calls[i].DispatchObject?
      ensures calls[i].h in s.heap
    {
      if i > 0 {
        assert calls[i] == rest[i - 1];
      }
    }
  }

  /** Two distinct tasklets with one run each are run twice, in both modes. */
  lemma TwinValues(t: Tasklet)
    requires t.kind == Plain && t.refCount == 1
    ensures Run(Create(0), Submits([t, t])) == Ok(Create(0), [t.id, t.id])
    ensures Run(Create(1), Submits([t, t]) + Works(2)) == Ok(Create(1), [t.id, t.id])
  {
    SyncEquivalence(1, [t, t]);
    assert [t, t][1..] == [t];
    assert Schedule([t, t]) == Runs(t) + Schedule([t]);
    assert Schedule([t]) == Runs(t) + Schedule([]);
    assert Runs(t) == [t.id];
  }
}

=== FILE: races.dfy ===
/** The worker loop as the source writes it: two atomic actions, not one.

    A worker first takes the runner mutex (line 221), outside the queue
    mutex, and only then enters the queue section (lines 224-251). Between
    the two, a dispatch may reopen the gate and another worker may take it.
    `Pool` keeps the workers apart by where they wait: `parked` ones wait at
    line 221, `holding` ones have passed it and wait for the queue section.
    A worker that ran its tasklet goes back to `parked`.

    The rest of the model uses the fused worker pass of `Runners.WorkerStep`,
    in which nothing can come between the two actions. `FusedPass` shows
    that this fused pass is exactly the two actions back to back, and
    `Race` shows an interleaving of the unfused loop that reads the head of
    an empty queue. FIFO hand-out and exact run counts survive the split
    (`PlayOutSchedule`).
 */
module Races {
  import opened Tasklets
  import opened Runners
  import Traces

  datatype Pool = Pool(numWorkers: nat, parked: nat, holding: nat, queue: seq<Tasklet>, gate: bool)

  datatype Action =
    | Dispatched(t: Tasklet)  // a caller's dispatch (lines 169-190)
    | TakeGate                // some parked worker locks the runner mutex (line 221)
    | Section                 // some holding worker runs its queue section (lines 224-251)

  datatype PoolOutcome =
    | Fine(pool: Pool, runs: seq<TaskletId>)
    | Broken(error: RunnerError)

  /** Construction: every worker is parked at line 221 behind a locked gate. */
  function Launch(numWorkers: nat): (p: Pool)
    ensures p.parked == p.numWorkers == numWorkers && p.holding == 0
    ensures p.queue == [] && !p.gate
  {
    Pool(numWorkers, numWorkers, 0, [], false)
  }

  /** Line 221: a parked worker gets past a gate that is open, and locks it
      behind itself. With the gate locked, or nobody parked, nothing moves. */
  function TakeGateStep(p: Pool): (p': Pool)
    ensures p'.queue == p.queue && p'.numWorkers == p.numWorkers
    ensures p'.parked + p'.holding == p.parked + p.holding
    ensures p' == p || (p.gate && !p'.gate && p'.holding == p.holding + 1)
    ensures p.gate && p.parked > 0 ==> p' != p
  {
    if p.gate && p.parked > 0 then
      p.(gate := false, parked := p.parked - 1, holding := p.holding + 1)
    else p
  }

  /** Lines 224-251 for a worker holding the gate: read the head; an end
      marker alone stops the worker and reopens the gate; any other head is
      handed out and retired, and the gate is reopened when the queue still
      holds something. Nothing here ever closes the gate. */
  function QueueSection(p: Pool): (o: PoolOutcome)
    requires p.holding > 0
    ensures o.Broken? <==>
              (|p.queue| == 0 || (p.queue[0].IsEndMarker() && |p.queue| > 1))
    ensures |p.queue| == 0 ==> o == Broken(FrontOfEmptyQueue)
    ensures |p.queue| > 1 && p.queue[0].IsEndMarker() ==> o == Broken(NotAllTaskletsExecuted)
    ensures o.Fine? ==> (o.pool.gate <==> p.gate || o.pool.queue != [])
    ensures o.Fine? ==> o.pool.holding == p.holding - 1 && o.pool.numWorkers == p.numWorkers
    ensures o.Fine? && p.gate ==> o.pool.gate
    ensures o.Fine? && p.queue[0].IsEndMarker() ==>
              o.runs == [] && o.pool.queue == p.queue && o.pool.gate
              && o.pool.parked == p.parked
    ensures o.Fine? && !p.queue[0].IsEndMarker() ==>
              o.runs == [p.queue[0].id] && o.pool.queue == Retire(p.queue)
              && o.pool.parked == p.parked + 1
              && (o.pool.queue != [] ==> o.pool.gate)
  {
    if |p.queue| == 0 then Broken(FrontOfEmptyQueue)
    else
      var head := p.queue[0];
      if head.IsEndMarker() then
        if |p.queue| > 1 then Broken(NotAllTaskletsExecuted)
        else Fine(p.(holding := p.holding - 1, gate := true), [])
      else
        var q' := Retire(p.queue);
        Fine(p.(queue := q', gate := p.gate || |q'| > 0,
                holding := p.holding - 1, parked := p.parked + 1), [head.id])
  }

  function Act(p: Pool, a: Action): (o: PoolOutcome) {
    match a
    case Dispatched(t) =>
      var d := Dispatch(Runner(p.numWorkers, p.parked + p.holding, p.queue, p.gate), t);
      Fine(p.(queue := d.runner.queue, gate := d.runner.gate), d.ran)
    case TakeGate => Fine(TakeGateStep(p), [])
    case Section => if p.holding == 0 then Fine(p, []) else QueueSection(p)
  }

  /** Run a sequence of actions; the first failure ends it. */
  function PlayOut(p: Pool, acts: seq<Action>): (o: PoolOutcome)
    decreases |acts|
  {
    if acts == [] then Fine(p, [])
    else
      match Act(p, acts[0])
      case Broken(e) => Broken(e)
      case Fine(p1, x) =>
        match PlayOut(p1, acts[1..])
        case Broken(e) => Broken(e)
        case Fine(p2, y) => Fine(p2, x + y)
  }

  // ---------------------------------------------------------------------
  // What the unfused loop does keep

  /** Queued work is never stranded: whenever the queue holds something,
      either the gate is open or some worker is past line 221 and will
      look at the queue. The workers are never more than were created. */
  predicate NoStrandedWork(p: Pool) {
    && p.parked + p.holding <= p.numWorkers
    && (p.numWorkers == 0 ==> p.queue == [])
    && (p.queue != [] ==> p.gate || p.holding > 0)
  }

  lemma ActKeepsWork(p: Pool, a: Action)
    requires NoStrandedWork(p)
    ensures Act(p, a).Fine? ==> NoStrandedWork(Act(p, a).pool)
    ensures Act(p, a).Fine? ==> Act(p, a).pool.numWorkers == p.numWorkers
  {
  }

  /** Over any interleaving of the unfused loop, no queued work is ever left
      without a worker on its way to it. */
  lemma {:induction false} PlayOutKeepsWork(p: Pool, acts: seq<Action>)
    requires NoStrandedWork(p)
    ensures PlayOut(p, acts).Fine? ==> NoStrandedWork(PlayOut(p, acts).pool)
    decreases |acts|
  {
    if acts != [] {
      ActKeepsWork(p, acts[0]);
      if Act(p, acts[0]).Fine? {
        PlayOutKeepsWork(Act(p, acts[0]).pool, acts[1..]);
      }
    }
  }

  /** The tasklets an action puts into the runner's care. */
  function Dispatches(a: Action): (ts: seq<Tasklet>) {
    if a.Dispatched? then [a.t] else []
  }

  function DispatchedBy(acts: seq<Action>): (ts: seq<Tasklet>)
    decreases |acts|
  {
    if acts == [] then [] else Dispatches(acts[0]) + DispatchedBy(acts[1..])
  }

  /** Callers only dispatch ordinary tasklets that are to run at least once. */
  predicate UserActions(acts: seq<Action>) {
    forall i :: 0 <= i < |acts| ==> acts[i].Dispatched? ==> acts[i].t.kind == Plain && acts[i].t.refCount > 0
  }

  /** Queued work that the schedule covers: ordinary tasklets with runs left. */
  predicate Owed(p: Pool) {
    NoStrandedWork(p) && PositiveCounts(p.queue) && NoEndMarker(p.queue)
  }

  /** One action of the unfused loop: what it ran, followed by what the
      queue still owes, is what was owed before plus what it dispatched. */
  lemma ActSchedule(p: Pool, a: Action)
    requires Owed(p)
    requires a.Dispatched? ==> a.t.kind == Plain && a.t.refCount > 0
    ensures Act(p, a).Fine? ==>
              && Act(p, a).runs + Schedule(Act(p, a).pool.queue) == Schedule(p.queue + Dispatches(a))
              && Owed(Act(p, a).pool)
  {
    ActKeepsWork(p, a);
    var q := p.queue;
    match a
    case Dispatched(t) =>
      if p.numWorkers == 0 {
        InlineMatchesSchedule(t);
        assert q + [t] == [t];
      } else {
        var q' := Act(p, a).pool.queue;
        assert q' == q + [t];
        assert PositiveCounts(q') && NoEndMarker(q') by {
          forall i | 0 <= i < |q'| ensures !q'[i].IsEndMarker() && q'[i].refCount > 0 {
            if i < |q| {
              assert q'[i] == q[i];
            }
          }
        }
      }
    case TakeGate =>
      assert q + [] == q;
    case Section =>
      assert q + [] == q;
      if p.holding > 0 && q != [] {
        HandOutSchedule(q);
        Traces.RetireKeepsPositive(q);
      }
  }

  /** Over any interleaving of the unfused loop, up to the first failure,
      the runs so far followed by the schedule of the queue are the
      schedule of everything that was queued or dispatched. Taking the gate
      never touches the queue and the queue section is atomic, so FIFO
      hand-out and exact run counts survive the split; what the split
      breaks is only that a section may find the queue empty. */
  lemma {:induction false} PlayOutSchedule(p: Pool, acts: seq<Action>)
    requires Owed(p) && UserActions(acts)
    ensures PlayOut(p, acts).Fine? ==>
              && PlayOut(p, acts).runs + Schedule(PlayOut(p, acts).pool.queue)
                 == Schedule(p.queue + DispatchedBy(acts))
              && Owed(PlayOut(p, acts).pool)
    decreases |acts|
  {
    if acts == [] {
      assert p.queue + DispatchedBy(acts) == p.queue;
    } else if PlayOut(p, acts).Fine? {
      var a := acts[0];
      var o1 := Act(p, a);
      ActSchedule(p, a);
      assert UserActions(acts[1..]) by {
        forall i | 0 <= i < |acts[1..]| ensures acts[1..][i].Dispatched? ==>
                     acts[1..][i].t.kind == Plain && acts[1..][i].t.refCount > 0 {
          assert acts[1..][i] == acts[i + 1];
        }
      }
      var o2 := PlayOut(o1.pool, acts[1..]);
      PlayOutSchedule(o1.pool, acts[1..]);
      assert PlayOut(p, acts) == Fine(o2.pool, o1.runs + o2.runs);
      var sub1 := Dispatches(a);
      var rest := DispatchedBy(acts[1..]);
      Traces.ScheduleAppend3(p.queue, sub1, rest);
      ScheduleAppend(o1.pool.queue, rest);
      Traces.Splice(o1.runs, o2.runs, Schedule(o1.pool.queue), Schedule(o2.pool.queue), Schedule(rest),
                    Schedule(p.queue + sub1), Schedule(o1.pool.queue + rest));
    }
  }

  /** From construction, the runs of any interleaving of the unfused loop
      that has not failed are a prefix of the schedule of what was
      dispatched; once the queue is empty they are all of it. */
  lemma PlayOutFifo(numWorkers: nat, acts: seq<Action>)
    requires UserActions(acts)
    ensures PlayOut(Launch(numWorkers), acts).Fine? ==>
              var sched := Schedule(DispatchedBy(acts));
              var runs := PlayOut(Launch(numWorkers), acts).runs;
              && runs <= sched
              && (PlayOut(Launch(numWorkers), acts).pool.queue == [] ==> runs == sched)
  {
    var p := Launch(numWorkers);
    PlayOutSchedule(p, acts);
    assert p.queue + DispatchedBy(acts) == DispatchedBy(acts);
  }

  // ---------------------------------------------------------------------
  // The fused pass and the race

  /** A runner of the fused model as a pool in which no worker is between
      line 221 and line 224. */
  function Unfuse(r: Runner): (p: Pool)
    ensures p.holding == 0 && p.parked == r.live && p.queue == r.queue && p.gate == r.gate
  {
    Pool(r.numWorkers, r.live, 0, r.queue, r.gate)
  }

  /** The two outcomes agree: the same failure, or the same runs and the
      same state. */
  predicate Agree(o: PoolOutcome, v: Traces.Outcome) {
    match o
    case Broken(e) => v == Traces.Crashed(e)
    case Fine(p, runs) => v.Ok? && p == Unfuse(v.runner) && runs == v.runs
  }

  /** The fused worker pass of the model is exactly taking the gate and
      then running the queue section, with nothing in between. */
  lemma FusedPass(r: Runner)
    ensures Agree(PlayOut(Unfuse(r), [TakeGate, Section]), Traces.WorkApply(r))
  {
    var p := Unfuse(r);
    var p1 := TakeGateStep(p);
    assert [TakeGate, Section][1..] == [Section];
    assert PlayOut(p1, [Section]) == Act(p1, Section) by {
      assert [Section][1..] == [];
      if Act(p1, Section).Fine? {
        assert Act(p1, Section).runs + [] == Act(p1, Section).runs;
      }
    }
    if r.gate && r.live > 0 {
      assert p1 == Pool(r.numWorkers, r.live - 1, 1, r.queue, false);
    }
  }

  /** Two workers, and a dispatch that lands after the first one has taken
      the gate. After the first worker pops A (and reopens the gate, since B
      is queued) and the second pops B (and, the queue now empty, leaves the
      gate alone), the gate is open on an empty queue. The next worker to
      pass line 221 reads the head of the empty queue. */
  lemma Race()
    ensures var a := Tasklet(1, 1, Plain);
            var b := Tasklet(2, 1, Plain);
            var acts := [Dispatched(a), TakeGate, Dispatched(b), TakeGate, Section, Section];
            && PlayOut(Launch(2), acts) == Fine(Pool(2, 2, 0, [], true), [1, 2])
            && PlayOut(Pool(2, 2, 0, [], true), [TakeGate, Section]) == Broken(FrontOfEmptyQueue)
  {
    var a := Tasklet(1, 1, Plain);
    var b := Tasklet(2, 1, Plain);
    var p0 := Launch(2);
    var p1 := Pool(2, 2, 0, [a], true);
    var p2 := Pool(2, 1, 1, [a], false);
    var p3 := Pool(2, 1, 1, [a, b], true);
    var p4 := Pool(2, 0, 2, [a, b], false);
    var p5 := Pool(2, 1, 1, [b], true);
    var p6 := Pool(2, 2, 0, [], true);
    RaceSections();
    assert PlayOut(p4, [Section, Section]) == Fine(p6, [1, 2]) by {
      PlayOutStep(p5, Section, [], p6, [2]);
      PlayOutStep(p4, Section, [Section], p5, [1]);
    }
    RaceDispatches();
    PlayOutStep(p3, TakeGate, [Section, Section], p4, []);
    PlayOutStep(p2, Dispatched(b), [TakeGate, Section, Section], p3, []);
    PlayOutStep(p1, TakeGate, [Dispatched(b), TakeGate, Section, Section], p2, []);
    PlayOutStep(p0, Dispatched(a), [TakeGate, Dispatched(b), TakeGate, Section, Section], p1, []);
    assert [TakeGate, Section][1..] == [Section];
    assert Act(p6, TakeGate) == Fine(Pool(2, 1, 1, [], false), []);
  }

  /** The race's first four actions: both dispatches and both gate takes. */
  lemma RaceDispatches()
    ensures var a := Tasklet(1, 1, Plain);
            var b := Tasklet(2, 1, Plain);
            && Act(Launch(2), Dispatched(a)) == Fine(Pool(2, 2, 0, [a], true), [])
            && Act(Pool(2, 2, 0, [a], true), TakeGate) == Fine(Pool(2, 1, 1, [a], false), [])
            && Act(Pool(2, 1, 1, [a], false), Dispatched(b)) == Fine(Pool(2, 1, 1, [a, b], true), [])
            && Act(Pool(2, 1, 1, [a, b], true), TakeGate) == Fine(Pool(2, 0, 2, [a, b], false), [])
  {
    var a := Tasklet(1, 1, Plain);
    var b := Tasklet(2, 1, Plain);
    assert [] + [a] == [a];
    assert [a] + [b] == [a, b];
  }

  /** The race's two queue sections: the first reopens the gate because B
      is still queued, the second leaves it open on the empty queue. */
  lemma RaceSections()
    ensures var a := Tasklet(1, 1, Plain);
            var b := Tasklet(2, 1, Plain);
            && Act(Pool(2, 0, 2, [a, b], false), Section) == Fine(Pool(2, 1, 1, [b], true), [1])
            && Act(Pool(2, 1, 1, [b], true), Section) == Fine(Pool(2, 2, 0, [], true), [2])
  {
    var a := Tasklet(1, 1, Plain);
    var b := Tasklet(2, 1, Plain);
    assert Retire([a, b]) == [b] by {
      assert [a, b][1..] == [b];
    }
    assert Retire([b]) == [];
  }

  /** A sequence of actions whose first action succeeds. */
  lemma PlayOutStep(p: Pool, a: Action, rest: seq<Action>, p1: Pool, x: seq<TaskletId>)
    requires Act(p, a) == Fine(p1, x)
    ensures PlayOut(p, [a] + rest) ==
            match PlayOut(p1, rest)
            case Broken(e) => Broken(e)
            case Fine(p2, y) => Fine(p2, x + y)
  {
    assert ([a] + rest)[0] == a;
    assert ([a] + rest)[1..] == rest;
  }
}

=== FILE: runner.dfy ===
/** The TaskletRunner's shared state and its critical sections.

    The runner owns a FIFO queue of tasklets and a wake-up gate (the
    runner mutex used as a binary semaphore: "open" means a parked worker
    may proceed). Every change to the queue happens under the queue mutex,
    and each such block is one atomic step from an immutable state to the
    next. A worker's pass is one step here: taking the gate (line 221) and
    the queue section after it (lines 224-251) happen together. The source
    takes them as two actions, with only the second under the queue mutex;
    module `Races` keeps them apart and shows what can then come between.
    Worker threads are not told apart: `live` only counts the workers that
    have not terminated yet.
 */
module Runners {
  import opened Tasklets

  datatype Runner = Runner(numWorkers: nat, live: nat, queue: seq<Tasklet>, gate: bool)

  /** The gate is open exactly when there is something in the queue, so an
      awakened worker always finds a head to read. */
  predicate GateInv(r: Runner) {
    r.gate <==> |r.queue| > 0
  }

  /** The invariant of every reachable runner state. */
  predicate Valid(r: Runner) {
    && GateInv(r)
    && r.live <= r.numWorkers
    && (r.numWorkers == 0 ==> r.queue == [])
  }

  /** Construction: all workers are alive, the queue is empty and the gate
      is locked, so the workers block until work arrives. */
  function Create(numWorkers: nat): (r: Runner)
    ensures Valid(r)
    ensures r.numWorkers == numWorkers && r.live == numWorkers
    ensures r.queue == [] && !r.gate
  {
    Runner(numWorkers, numWorkers, [], false)
  }

  datatype DispatchResult = DispatchResult(runner: Runner, ran: seq<TaskletId>)

  /** Hand a tasklet to the runner. Without workers it is run inline until
      its count is used up; otherwise it is appended to the queue and the
      gate is opened. */
  function Dispatch(r: Runner, t: Tasklet): (res: DispatchResult)
    ensures r.numWorkers == 0 ==> res.runner == r
    ensures r.numWorkers == 0 ==>
              |res.ran| == (if t.refCount > 0 then t.refCount else 0)
              && forall i :: 0 <= i < |res.ran| ==> res.ran[i] == t.id
    ensures r.numWorkers > 0 ==> res.ran == []
    ensures r.numWorkers > 0 ==>
              && |res.runner.queue| == |r.queue| + 1
              && res.runner.queue[..|r.queue|] == r.queue
              && res.runner.queue[|r.queue|] == t
              && res.runner.gate
              && res.runner.numWorkers == r.numWorkers
              && res.runner.live == r.live
  {
    if r.numWorkers == 0 then
      DispatchResult(r, RunInline(t).ran)
    else
      DispatchResult(r.(queue := r.queue + [t], gate := true), [])
  }

  datatype RunnerError =
    | FrontOfEmptyQueue        // the head of an empty queue would be read
    | NotAllTaskletsExecuted   // an end marker was seen with work queued behind it

  datatype WorkerOutcome =
    | HandedOut(id: TaskletId, runner: Runner)
    | Terminated(runner: Runner)
    | Failed(error: RunnerError)

  /** One pass of a worker's loop up to the point where it runs a tasklet:
      take the gate and, with nothing in between, look at the head of the
      queue. An end marker stops
      the worker, is left in place and reopens the gate. Any other head is
      dereferenced, popped once its count reaches zero, and the gate is
      reopened if the queue still holds something. */
  function WorkerStep(r: Runner): (o: WorkerOutcome)
    requires r.gate && r.live > 0
    ensures o.Failed? <==>
              (|r.queue| == 0 || (r.queue[0].IsEndMarker() && |r.queue| > 1))
    ensures |r.queue| == 0 ==> o == Failed(FrontOfEmptyQueue)
    ensures |r.queue| > 1 && r.queue[0].IsEndMarker() ==>
              o == Failed(NotAllTaskletsExecuted)
    ensures |r.queue| == 1 && r.queue[0].IsEndMarker() ==>
              o == Terminated(r.(live := r.live - 1))
    ensures |r.queue| > 0 && !r.queue[0].IsEndMarker() ==>
              && o.HandedOut?
              && o.id == r.queue[0].id
              && o.runner.numWorkers == r.numWorkers
              && o.runner.live == r.live
              && (r.queue[0].refCount == 1 ==> o.runner.queue == r.queue[1..])
              && (r.queue[0].refCount != 1 ==>
                    && |o.runner.queue| == |r.queue|
                    && o.runner.queue[1..] == r.queue[1..]
                    && o.runner.queue[0] == r.queue[0].(refCount := r.queue[0].refCount - 1))
              && (o.runner.gate <==> |o.runner.queue| > 0)
  {
    if |r.queue| == 0 then
      Failed(FrontOfEmptyQueue)
    else
      var head := r.queue[0];
      if head.IsEndMarker() then
        if |r.queue| > 1 then Failed(NotAllTaskletsExecuted)
        else Terminated(r.(live := r.live - 1, gate := true))
      else
        var q' := Retire(r.queue);
        HandedOut(head.id, r.(queue := q', gate := |q'| > 0))
  }

  /** The tasklet a barrier enqueues: one run per worker. */
  function BarrierTasklet(id: TaskletId, numWorkers: nat): (t: Tasklet)
    ensures t.id == id && t.refCount == numWorkers && !t.IsEndMarker()
  {
    Tasklet(id, numWorkers, BarrierKind)
  }

  /** Issue a barrier: nothing to do without workers, otherwise enqueue a
      barrier tasklet that every worker has to run once. */
  function Barrier(r: Runner, id: TaskletId): (r': Runner)
    ensures r.numWorkers == 0 ==> r' == r
    ensures r.numWorkers > 0 ==>
              r' == r.(queue := r.queue + [BarrierTasklet(id, r.numWorkers)], gate := true)
  {
    if r.numWorkers == 0 then r
    else Dispatch(r, BarrierTasklet(id, r.numWorkers)).runner
  }

  /** Destruction: with workers, enqueue a single end marker; the workers
      are then joined as each of them meets it. */
  function Shutdown(r: Runner, id: TaskletId): (r': Runner)
    ensures r.numWorkers == 0 ==> r' == r
    ensures r.numWorkers > 0 ==>
              r' == r.(queue := r.queue + [EndMarkerTasklet(id)], gate := true)
  {
    if r.numWorkers == 0 then r
    else Dispatch(r, EndMarkerTasklet(id)).runner
  }
}

=== FILE: tasklets.dfy ===
/** Tasklets: the unit of work handed to a TaskletRunner.

    A tasklet carries a reference (run) count, which says how many more
    times it has to be run, and a kind telling whether it is an ordinary
    tasklet, a barrier tasklet or the end marker that stops a worker.
    What `run()` does is opaque; a tasklet is identified by an id so that
    traces of runs can be compared.
 */
module Tasklets {

  /** Identity of a tasklet, used only to tell runs apart in traces. */
  type TaskletId = nat

  /** The run count a tasklet gets when none is given. */
  const DefaultRefCount: int := 1

  datatype Kind = Plain | BarrierKind | EndMarker

  datatype Tasklet = Tasklet(id: TaskletId, refCount: int, kind: Kind) {

    predicate IsEndMarker() {
      kind == EndMarker
    }

    /** One use of the tasklet has been handed out. */
    function Dereference(): (t: Tasklet) {
      this.(refCount := refCount - 1)
    }
  }

  /** A user tasklet with the default run count. */
  function NewTasklet(id: TaskletId): (t: Tasklet)
    ensures t.refCount == 1 && !t.IsEndMarker() && t.id == id
  {
    Tasklet(id, DefaultRefCount, Plain)
  }

  /** Without an explicit count a tasklet is run exactly once. */
  lemma DefaultRunsOnce(id: TaskletId)
    ensures RunInline(NewTasklet(id)).ran == [id]
    ensures RunInline(NewTasklet(id)).tasklet.refCount == 0
  {
    var r := RunInline(NewTasklet(id)).ran;
    assert |r| == 1 && r[0] == id;
  }

  /** The tasklet that makes a worker thread terminate; it is built with the
      default run count, but its count is never looked at. */
  function EndMarkerTasklet(id: TaskletId): (t: Tasklet)
    ensures t.IsEndMarker() && t.id == id && t.refCount == DefaultRefCount
  {
    Tasklet(id, DefaultRefCount, EndMarker)
  }

  /** `k` copies of `id`; nothing when `k` is not positive. */
  function Repeat(id: TaskletId, k: int): (s: seq<TaskletId>)
    ensures |s| == if k > 0 then k else 0
    ensures forall i :: 0 <= i < |s| ==> s[i] == id
    decreases if k > 0 then k else 0
  {
    if k <= 0 then [] else [id] + Repeat(id, k - 1)
  }

  /** The ids under which a queued tasklet will still be handed out:
      its id once per remaining run, and nothing for an end marker,
      which is inspected but never run. */
  function Runs(t: Tasklet): (s: seq<TaskletId>) {
    if t.IsEndMarker() then [] else Repeat(t.id, t.refCount)
  }

  /** The reference order of hand-outs for a queue: every tasklet all of its
      remaining runs, strictly in queue order. */
  function Schedule(q: seq<Tasklet>): (s: seq<TaskletId>) {
    if q == [] then [] else Runs(q[0]) + Schedule(q[1..])
  }

  /** Every ordinary tasklet in the queue still has a run to hand out. */
  predicate PositiveCounts(q: seq<Tasklet>) {
    forall i :: 0 <= i < |q| ==> q[i].IsEndMarker() || q[i].refCount > 0
  }

  predicate NoEndMarker(q: seq<Tasklet>) {
    forall i :: 0 <= i < |q| ==> !q[i].IsEndMarker()
  }

  lemma {:induction false} ScheduleAppend(a: seq<Tasklet>, b: seq<Tasklet>)
    ensures Schedule(a + b) == Schedule(a) + Schedule(b)
    decreases |a|
  {
    if a == [] {
      assert a + b == b;
    } else {
      assert (a + b)[1..] == a[1..] + b;
      ScheduleAppend(a[1..], b);
    }
  }

  /** For queues without end markers whose tasklets all still have runs,
      the schedule is empty exactly when the queue is. */
  lemma ScheduleEmptyIff(q: seq<Tasklet>)
    requires PositiveCounts(q) && NoEndMarker(q)
    ensures Schedule(q) == [] <==> q == []
  {
    if q != [] {
      assert |Runs(q[0])| > 0;
    }
  }

  /** Handing out one use of the head of a queue consumes the first entry of
      its schedule and leaves the schedule of the remaining queue. */
  lemma HandOutSchedule(q: seq<Tasklet>)
    requires q != [] && !q[0].IsEndMarker() && q[0].refCount > 0
    ensures Schedule(q) == [q[0].id] + Schedule(Retire(q))
  {
    var t := q[0];
    var h := t.Dereference();
    var rest := Schedule(q[1..]);
    assert Runs(t) == [t.id] + Runs(h);
    calc {
      Schedule(q);
      Runs(t) + rest;
      [t.id] + (Runs(h) + rest);
    }
    if h.refCount == 0 {
      assert Runs(h) == [];
      assert Runs(h) + rest == rest;
    } else {
      var q' := [h] + q[1..];
      assert q'[0] == h && q'[1..] == q[1..];
      assert Schedule(q') == Runs(h) + rest;
    }
  }

  /** The queue after the worker took one use of the head: the head's count
      drops by one and the head is popped once it reaches zero. */
  function Retire(q: seq<Tasklet>): (q': seq<Tasklet>)
    requires q != []
    ensures q[0].refCount == 1 ==> q' == q[1..]
    ensures q[0].refCount != 1 ==> |q'| == |q| && q'[1..] == q[1..]
                                   && q'[0] == q[0].(refCount := q[0].refCount - 1)
  {
    var h := q[0].Dereference();
    if h.refCount == 0 then q[1..] else [h] + q[1..]
  }

  datatype InlineResult = InlineResult(ran: seq<TaskletId>, tasklet: Tasklet)

  /** Synchronous dispatch: while the count is positive, dereference and run
      the tasklet on the calling thread. */
  function RunInline(t: Tasklet): (res: InlineResult)
    ensures |res.ran| == if t.refCount > 0 then t.refCount else 0
    ensures forall i :: 0 <= i < |res.ran| ==> res.ran[i] == t.id
    ensures res.tasklet.id == t.id && res.tasklet.kind == t.kind
    ensures res.tasklet.refCount == if t.refCount > 0 then 0 else t.refCount
    decreases if t.refCount > 0 then t.refCount else 0
  {
    if t.refCount > 0 then
      var rest := RunInline(t.Dereference());
      InlineResult([t.id] + rest.ran, rest.tasklet)
    else
      InlineResult([], t)
  }

  /** Run inline, an ordinary tasklet is run exactly the runs its schedule
      lists, and its count is left at zero. */
  lemma InlineMatchesSchedule(t: Tasklet)
    requires !t.IsEndMarker() && t.refCount > 0
    ensures RunInline(t).ran == Schedule([t])
    ensures RunInline(t).tasklet.refCount == 0
  {
    var r := RunInline(t).ran;
    var s := Repeat(t.id, t.refCount);
    assert Schedule([t]) == s + Schedule([]);
    assert r == s;
  }
}

=== FILE: traces.dfy ===
/** Traces of runner steps.

    A trace is any interleaving of the critical sections: callers
    dispatching tasklets, issuing barriers or destroying the runner, and
    workers taking one (fused) pass through their loop. A worker step while the gate
    is closed, or when no worker is left, changes nothing: that worker is
    parked (or does not exist). The trace records, in order, every run of a
    tasklet: inline runs in synchronous mode, hand-outs to workers otherwise.
 */
module Traces {
  import opened Tasklets
  import opened Runners
  import Barriers

  datatype Step =
    | Submit(t: Tasklet)          // a caller's dispatch
    | Work                        // one pass of some worker's loop
    | IssueBarrier(id: TaskletId) // the enqueueing half of barrier()
    | Destroy(id: TaskletId)      // the destructor's end marker

  datatype Outcome =
    | Ok(runner: Runner, runs: seq<TaskletId>)
    | Crashed(error: RunnerError)

  /** One pass of a worker's loop as a trace step; a parked worker, or no
      worker at all, changes nothing. */
  function WorkApply(r: Runner): (o: Outcome)
    ensures !r.gate || r.live == 0 ==> o == Ok(r, [])
    ensures o.Crashed? ==> r.gate && r.live > 0 && WorkerStep(r) == Failed(o.error)
    ensures o.Ok? ==> |o.runs| <= 1 && o.runner.numWorkers == r.numWorkers
                      && o.runner.live <= r.live
    ensures o.Ok? && o.runner.live < r.live ==>
              o.runs == [] && o.runner.queue == r.queue && |r.queue| == 1
              && r.queue[0].IsEndMarker()
    ensures o.Ok? && o.runs != [] ==>
              r.queue != [] && o.runs == [r.queue[0].id] && o.runner.queue == Retire(r.queue)
    ensures r.gate && r.live > 0 && r.queue != [] && !r.queue[0].IsEndMarker() ==>
              && o.Ok? && o.runs == [r.queue[0].id] && o.runner.queue == Retire(r.queue)
              && o.runner.live == r.live && (o.runner.gate <==> o.runner.queue != [])
    ensures r.gate && r.live > 0 && |r.queue| == 1 && r.queue[0].IsEndMarker() ==>
              o == Ok(r.(live := r.live - 1), [])
  {
    if !r.gate || r.live == 0 then Ok(r, [])
    else
      match WorkerStep(r)
      case HandedOut(id, r') => Ok(r', [id])
      case Terminated(r') => Ok(r', [])
      case Failed(e) => Crashed(e)
  }

  function Apply(r: Runner, s: Step): (o: Outcome) {
    match s
    case Submit(t) =>
      var d := Dispatch(r, t);
      Ok(d.runner, d.ran)
    case Work => WorkApply(r)
    case IssueBarrier(id) => Ok(Barrier(r, id), [])
    case Destroy(id) => Ok(Shutdown(r, id), [])
  }

  /** Prefix the runs of a finished trace with earlier runs. */
  function Prepend(a: seq<TaskletId>, o: Outcome): (o': Outcome) {
    match o
    case Crashed(e) => o
    case Ok(r2, b) => Ok(r2, a + b)
  }

  /** Run a trace; the first failure ends it. */
  function Run(r: Runner, steps: seq<Step>): (o: Outcome)
    decreases |steps|
  {
    if steps == [] then Ok(r, [])
    else
      var o := Apply(r, steps[0]);
      if o.Crashed? then o else Prepend(o.runs, Run(o.runner, steps[1..]))
  }

  function Works(k: nat): (steps: seq<Step>) {
    if k == 0 then [] else [Work] + Works(k - 1)
  }

  lemma {:induction false} WorksAppend(a: nat, b: nat)
    ensures Works(a + b) == Works(a) + Works(b)
  {
    if a > 0 {
      WorksAppend(a - 1, b);
      assert a + b - 1 == (a - 1) + b;
    }
  }

  function Submits(ts: seq<Tasklet>): (steps: seq<Step>) {
    if ts == [] then [] else [Submit(ts[0])] + Submits(ts[1..])
  }

  /** The tasklets a step puts into the runner's care. */
  function SubmittedBy(numWorkers: nat, s: Step): (ts: seq<Tasklet>) {
    match s
    case Submit(t) => [t]
    case Work => []
    case IssueBarrier(id) => if numWorkers == 0 then [] else [BarrierTasklet(id, numWorkers)]
    case Destroy(id) => if numWorkers == 0 then [] else [EndMarkerTasklet(id)]
  }

  function Submitted(numWorkers: nat, steps: seq<Step>): (ts: seq<Tasklet>)
    decreases |steps|
  {
    if steps == [] then [] else SubmittedBy(numWorkers, steps[0]) + Submitted(numWorkers, steps[1..])
  }

  /** Callers only dispatch ordinary tasklets that are to run at least once. */
  predicate UserStep(s: Step) {
    s.Submit? ==> s.t.kind == Plain && s.t.refCount > 0
  }

  predicate UserSteps(steps: seq<Step>) {
    forall i :: 0 <= i < |steps| ==> UserStep(steps[i])
  }

  lemma {:induction false} RunAppend(r: Runner, a: seq<Step>, b: seq<Step>)
    requires Run(r, a).Ok?
    ensures Run(r, a + b) == Prepend(Run(r, a).runs, Run(Run(r, a).runner, b))
    decreases |a|
  {
    if a == [] {
      assert a + b == b;
      PrependNothing(Run(r, b));
    } else {
      RunAppendStep(r, a, b);
    }
  }

  /** A trace whose first step succeeds: that step's runs come first. */
  lemma RunCons(r: Runner, steps: seq<Step>)
    requires steps != [] && Apply(r, steps[0]).Ok?
    ensures Run(r, steps) == Prepend(Apply(r, steps[0]).runs, Run(Apply(r, steps[0]).runner, steps[1..]))
  {
  }

  lemma PrependNothing(o: Outcome)
    ensures Prepend([], o) == o
  {
    if o.Ok? {
      assert [] + o.runs == o.runs;
    }
  }

  lemma {:induction false} RunAppendStep(r: Runner, a: seq<Step>, b: seq<Step>)
    requires a != [] && Run(r, a).Ok?
    ensures Run(r, a + b) == Prepend(Run(r, a).runs, Run(Run(r, a).runner, b))
    decreases |a|, 0
  {
    assert (a + b)[0] == a[0];
    assert (a + b)[1..] == a[1..] + b;
    var o1 := Apply(r, a[0]);
    assert o1.Ok?;
    RunAppend(o1.runner, a[1..], b);
    var ra := Run(o1.runner, a[1..]);
    assert Run(r, a + b) == Prepend(o1.runs, Run(o1.runner, a[1..] + b));
    PrependTwice(o1.runs, ra.runs, Run(ra.runner, b));
  }

  lemma PrependTwice(x: seq<TaskletId>, y: seq<TaskletId>, o: Outcome)
    ensures Prepend(x, Prepend(y, o)) == Prepend(x + y, o)
  {
    if o.Ok? {
      assert x + (y + o.runs) == (x + y) + o.runs;
    }
  }

  // ---------------------------------------------------------------------
  // Gate invariant

  /** One step keeps the runner valid and never reads the head of an empty
      queue. */
  lemma ApplyValid(r: Runner, s: Step)
    requires Valid(r)
    ensures Apply(r, s) != Crashed(FrontOfEmptyQueue)
    ensures Apply(r, s).Ok? ==> Valid(Apply(r, s).runner)
    ensures Apply(r, s).Ok? ==> Apply(r, s).runner.numWorkers == r.numWorkers
  {
  }

  /** Every trace from a valid state keeps the runner valid and never reads
      the head of an empty queue. */
  lemma {:induction false} RunValid(r: Runner, steps: seq<Step>)
    requires Valid(r)
    ensures Run(r, steps) != Crashed(FrontOfEmptyQueue)
    ensures Run(r, steps).Ok? ==> Valid(Run(r, steps).runner)
    ensures Run(r, steps).Ok? ==> Run(r, steps).runner.numWorkers == r.numWorkers
    decreases |steps|
  {
    if steps != [] {
      ApplyValid(r, steps[0]);
      if Apply(r, steps[0]).Ok? {
        RunValid(Apply(r, steps[0]).runner, steps[1..]);
      }
    }
  }

  /** In every state reachable from construction the gate is open exactly
      when the queue is non-empty, and no worker ever reads the head of an
      empty queue. */
  lemma Reachable(numWorkers: nat, steps: seq<Step>)
    ensures Run(Create(numWorkers), steps) != Crashed(FrontOfEmptyQueue)
    ensures Run(Create(numWorkers), steps).Ok? ==>
              && GateInv(Run(Create(numWorkers), steps).runner)
              && Run(Create(numWorkers), steps).runner.numWorkers == numWorkers
  {
    RunValid(Create(numWorkers), steps);
  }

  // ---------------------------------------------------------------------
  // FIFO hand-out and exact run counts

  /** One step: what was run, followed by what the queue still owes, is what
      was owed before plus what the step submitted. */
  lemma ApplySchedule(r: Runner, s: Step)
    requires Valid(r) && PositiveCounts(r.queue) && UserStep(s)
    ensures Apply(r, s).Ok? ==>
              && Apply(r, s).runs + Schedule(Apply(r, s).runner.queue)
                 == Schedule(r.queue + SubmittedBy(r.numWorkers, s))
              && PositiveCounts(Apply(r, s).runner.queue)
  {
    match s
    case Submit(t) => SubmitSchedule(r, t);
    case Work => WorkSchedule(r);
    case IssueBarrier(id) =>
    case Destroy(id) =>
  }

  lemma SubmitSchedule(r: Runner, t: Tasklet)
    requires Valid(r) && PositiveCounts(r.queue) && t.kind == Plain && t.refCount > 0
    ensures Dispatch(r, t).ran + Schedule(Dispatch(r, t).runner.queue) == Schedule(r.queue + [t])
    ensures PositiveCounts(Dispatch(r, t).runner.queue)
  {
    if r.numWorkers == 0 {
      InlineMatchesSchedule(t);
      assert r.queue + [t] == [t];
    }
  }

  lemma WorkSchedule(r: Runner)
    requires Valid(r) && PositiveCounts(r.queue)
    ensures WorkApply(r).Ok? ==>
              && WorkApply(r).runs + Schedule(WorkApply(r).runner.queue) == Schedule(r.queue + [])
              && PositiveCounts(WorkApply(r).runner.queue)
  {
    var q := r.queue;
    assert q + [] == q;
    if r.gate && r.live > 0 && !q[0].IsEndMarker() {
      HandOutSchedule(q);
      var q' := Retire(q);
      assert PositiveCounts(q') by {
        forall i | 0 <= i < |q'|
          ensures q'[i].IsEndMarker() || q'[i].refCount > 0
        {
          if q[0].refCount == 1 {
            assert q'[i] == q[i + 1];
          } else if i > 0 {
            assert q'[i] == q'[1..][i - 1] == q[1..][i - 1];
          }
        }
      }
    }
  }

  /** Over any trace of user steps: the runs recorded so far, followed by
      what the queue still owes, is exactly the schedule of everything that
      was ever in the runner's care, in dispatch order. So tasklets are run
      in FIFO order, each exactly its count times, and no tasklet is handed
      out before every earlier one has left the queue. */
  lemma {:induction false} RunSchedule(r: Runner, steps: seq<Step>)
    requires Valid(r) && PositiveCounts(r.queue) && UserSteps(steps)
    ensures Run(r, steps).Ok? ==>
              && Run(r, steps).runs + Schedule(Run(r, steps).runner.queue)
                 == Schedule(r.queue + Submitted(r.numWorkers, steps))
              && PositiveCounts(Run(r, steps).runner.queue)
    decreases |steps|, 1
  {
    if steps == [] {
      assert r.queue + Submitted(r.numWorkers, steps) == r.queue;
    } else if Run(r, steps).Ok? {
      RunScheduleCons(r, steps);
    }
  }

  /** Sequence bookkeeping for composing two trace segments. */
  lemma Splice(x1: seq<TaskletId>, x2: seq<TaskletId>, a: seq<TaskletId>, c: seq<TaskletId>,
               e: seq<TaskletId>, b: seq<TaskletId>, d: seq<TaskletId>)
    requires x1 + a == b && x2 + c == d && d == a + e
    ensures (x1 + x2) + c == b + e
  {
    calc {
      (x1 + x2) + c;
      x1 + (x2 + c);
      x1 + (a + e);
      (x1 + a) + e;
    }
  }

  lemma ScheduleAppend3(a: seq<Tasklet>, b: seq<Tasklet>, c: seq<Tasklet>)
    ensures Schedule(a + (b + c)) == Schedule(a + b) + Schedule(c)
  {
    assert a + (b + c) == (a + b) + c;
    ScheduleAppend(a + b, c);
  }

  lemma {:induction false} RunScheduleCons(r: Runner, steps: seq<Step>)
    requires Valid(r) && PositiveCounts(r.queue) && UserSteps(steps)
    requires steps != [] && Run(r, steps).Ok?
    ensures Run(r, steps).runs + Schedule(Run(r, steps).runner.queue)
            == Schedule(r.queue + Submitted(r.numWorkers, steps))
    ensures PositiveCounts(Run(r, steps).runner.queue)
    decreases |steps|, 0
  {
    var s := steps[0];
    var n := r.numWorkers;
    var o1 := Apply(r, s);
    var sub1 := SubmittedBy(n, s);
    var rest := Submitted(n, steps[1..]);
    assert o1.Ok? && Run(r, steps) == Prepend(o1.runs, Run(o1.runner, steps[1..])) by {
      RunCons(r, steps);
    }
    assert Valid(o1.runner) && o1.runner.numWorkers == n
           && o1.runs + Schedule(o1.runner.queue) == Schedule(r.queue + sub1)
           && PositiveCounts(o1.runner.queue) by {
      ApplySchedule(r, s);
      ApplyValid(r, s);
    }
    assert UserSteps(steps[1..]) by {
      forall i | 0 <= i < |steps[1..]| ensures UserStep(steps[1..][i]) {
        assert steps[1..][i] == steps[i + 1];
      }
    }
    var o2 := Run(o1.runner, steps[1..]);
    assert o2.Ok? && o2.runs + Schedule(o2.runner.queue) == Schedule(o1.runner.queue + rest)
           && PositiveCounts(o2.runner.queue) by {
      RunSchedule(o1.runner, steps[1..]);
    }
    assert Submitted(n, steps) == sub1 + rest;
    ScheduleAppend3(r.queue, sub1, rest);
    ScheduleAppend(o1.runner.queue, rest);
    Splice(o1.runs, o2.runs, Schedule(o1.runner.queue), Schedule(o2.runner.queue), Schedule(rest),
           Schedule(r.queue + sub1), Schedule(o1.runner.queue + rest));
  }

  /** From construction, the runs of any trace of user steps are a prefix of
      the schedule of what was submitted; once the queue is drained they are
      all of it. */
  lemma FifoFromCreate(numWorkers: nat, steps: seq<Step>)
    requires UserSteps(steps)
    ensures Run(Create(numWorkers), steps).Ok? ==>
              var sched := Schedule(Submitted(numWorkers, steps));
              var runs := Run(Create(numWorkers), steps).runs;
              && runs <= sched
              && (Run(Create(numWorkers), steps).runner.queue == [] ==> runs == sched)
  {
    var r := Create(numWorkers);
    RunSchedule(r, steps);
    assert r.queue + Submitted(numWorkers, steps) == Submitted(numWorkers, steps);
  }

  // ---------------------------------------------------------------------
  // Draining the queue

  lemma RetireAppend(p: seq<Tasklet>, tail: seq<Tasklet>)
    requires p != []
    ensures Retire(p + tail) == Retire(p) + tail
  {
    assert (p + tail)[0] == p[0];
    assert (p + tail)[1..] == p[1..] + tail;
  }

  lemma RetireKeepsPositive(p: seq<Tasklet>)
    requires p != [] && PositiveCounts(p) && NoEndMarker(p)
    ensures PositiveCounts(Retire(p)) && NoEndMarker(Retire(p))
  {
    var p' := Retire(p);
    forall i | 0 <= i < |p'|
      ensures !p'[i].IsEndMarker() && p'[i].refCount > 0
    {
      if p[0].refCount == 1 {
        assert p'[i] == p[i + 1];
      } else if i > 0 {
        assert p'[i] == p'[1..][i - 1] == p[1..][i - 1];
      }
    }
  }

  /** With a worker alive, `k` worker steps over a queue `p + tail` whose
      prefix `p` holds ordinary tasklets hand out the first `k` runs of the
      schedule of `p`; after all of them, exactly `tail` is left. */
  lemma {:induction false} DrainPrefix(r: Runner, p: seq<Tasklet>, tail: seq<Tasklet>, k: nat)
    requires Valid(r) && r.live > 0 && r.queue == p + tail
    requires PositiveCounts(p) && NoEndMarker(p) && k <= |Schedule(p)|
    ensures Run(r, Works(k)).Ok?
    ensures Run(r, Works(k)).runs == Schedule(p)[..k]
    ensures Run(r, Works(k)).runner.live == r.live
    ensures Run(r, Works(k)).runner.numWorkers == r.numWorkers
    ensures Valid(Run(r, Works(k)).runner)
    ensures k == |Schedule(p)| ==> Run(r, Works(k)).runner.queue == tail
    decreases k
  {
    ScheduleEmptyIff(p);
    if k == 0 {
      assert Works(0) == [];
      assert p == [] ==> p + tail == tail;
    } else {
      var p' := Retire(p);
      var r1 := r.(queue := p' + tail, gate := |p' + tail| > 0);
      assert WorkApply(r) == Ok(r1, [p[0].id]) by {
        RetireAppend(p, tail);
        assert r.queue[0] == p[0];
      }
      assert PositiveCounts(p') && NoEndMarker(p') by {
        RetireKeepsPositive(p);
      }
      assert Schedule(p) == [p[0].id] + Schedule(p') by {
        HandOutSchedule(p);
      }
      assert Works(k)[0] == Work && Works(k)[1..] == Works(k - 1);
      RunCons(r, Works(k));
      DrainPrefix(r1, p', tail, k - 1);
      assert Schedule(p)[..k] == [p[0].id] + Schedule(p')[..k - 1];
    }
  }

  /** Enough worker steps to hand out every run owed by the prefix `p`
      leave exactly `tail` behind. */
  lemma DrainAll(r: Runner, p: seq<Tasklet>, tail: seq<Tasklet>)
    requires Valid(r) && r.live > 0 && r.queue == p + tail
    requires PositiveCounts(p) && NoEndMarker(p)
    ensures Run(r, Works(|Schedule(p)|)) == Ok(r.(queue := tail, gate := tail != []), Schedule(p))
  {
    var k := |Schedule(p)|;
    DrainPrefix(r, p, tail, k);
    assert Schedule(p)[..k] == Schedule(p);
  }

  /** Pure-queue drain: the runner, as its workers would, takes steps while
      the gate is open; the runs are the schedule of the queue and the
      runner ends idle. */
  method Drain(r: Runner) returns (r': Runner, handed: seq<TaskletId>)
    requires Valid(r) && r.live > 0 && PositiveCounts(r.queue) && NoEndMarker(r.queue)
    ensures handed == Schedule(r.queue)
    ensures r' == r.(queue := [], gate := false)
  {
    r' := r;
    handed := [];
    while r'.gate
      invariant Valid(r') && r'.live == r.live && r'.numWorkers == r.numWorkers
      invariant PositiveCounts(r'.queue) && NoEndMarker(r'.queue)
      invariant handed + Schedule(r'.queue) == Schedule(r.queue)
      decreases |Schedule(r'.queue)|
    {
      HandOutSchedule(r'.queue);
      RetireKeepsPositive(r'.queue);
      var o := WorkerStep(r');
      handed := handed + [o.id];
      r' := o.runner;
    }
  }

  // ---------------------------------------------------------------------
  // End marker and shutdown

  /** A queue holding only the end marker stays that way: every further
      worker step sees the marker and terminates, and nothing is run. */
  lemma {:induction false} EndMarkerPersists(r: Runner, k: nat)
    requires Valid(r) && |r.queue| == 1 && r.queue[0].IsEndMarker()
    ensures Run(r, Works(k)) == Ok(r.(live := if r.live >= k then r.live - k else 0), [])
    decreases k
  {
    if k > 0 {
      assert Works(k)[1..] == Works(k - 1);
      var r1 := Apply(r, Work).runner;
      EndMarkerPersists(r1, k - 1);
    }
  }

  /** Dispatching after the end marker has reached the head makes the next
      worker that wakes up fail with a logic error. */
  lemma DispatchAfterShutdownFails(r: Runner, t: Tasklet)
    requires Valid(r) && r.live > 0 && |r.queue| == 1 && r.queue[0].IsEndMarker()
    ensures Run(r, [Submit(t), Work]) == Crashed(NotAllTaskletsExecuted)
  {
    var r1 := Dispatch(r, t).runner;
    assert [Submit(t), Work][1..] == [Work];
    assert Run(r1, [Work]) == Crashed(NotAllTaskletsExecuted);
  }

  /** Destruction with all workers alive: the single end marker is appended;
      the workers first run everything still queued, in order, and then each
      of them meets the marker and terminates, leaving only the marker. */
  lemma ShutdownJoinsAll(r: Runner, id: TaskletId)
    requires Valid(r) && r.numWorkers > 0 && r.live == r.numWorkers
    requires PositiveCounts(r.queue) && NoEndMarker(r.queue)
    ensures Run(Shutdown(r, id), Works(|Schedule(r.queue)| + r.numWorkers))
            == Ok(r.(live := 0, queue := [EndMarkerTasklet(id)], gate := true), Schedule(r.queue))
  {
    var n := r.numWorkers;
    var q := r.queue;
    var s := |Schedule(q)|;
    var m := EndMarkerTasklet(id);
    var r2 := r.(queue := [m], gate := true);
    ShutdownDrains(r, id);
    EndMarkerPersists(r2, n);
    WorksAppend(s, n);
    RunThen(Shutdown(r, id), Works(s), Works(n), r2, Schedule(q), r2.(live := 0), []);
    assert Schedule(q) + [] == Schedule(q);
  }

  /** After the end marker is appended, the workers first run everything
      queued before it and leave the marker alone at the head. */
  lemma ShutdownDrains(r: Runner, id: TaskletId)
    requires Valid(r) && r.numWorkers > 0 && r.live == r.numWorkers
    requires PositiveCounts(r.queue) && NoEndMarker(r.queue)
    ensures Run(Shutdown(r, id), Works(|Schedule(r.queue)|))
            == Ok(r.(queue := [EndMarkerTasklet(id)], gate := true), Schedule(r.queue))
  {
    var s := |Schedule(r.queue)|;
    DrainPrefix(Shutdown(r, id), r.queue, [EndMarkerTasklet(id)], s);
    assert Schedule(r.queue)[..s] == Schedule(r.queue);
  }

  /** Two successful trace segments compose. */
  lemma RunThen(r: Runner, a: seq<Step>, b: seq<Step>,
                rm: Runner, x: seq<TaskletId>, rf: Runner, y: seq<TaskletId>)
    requires Run(r, a) == Ok(rm, x) && Run(rm, b) == Ok(rf, y)
    ensures Run(r, a + b) == Ok(rf, x + y)
  {
    RunAppend(r, a, b);
  }

  // ---------------------------------------------------------------------
  // Barrier

  /** A barrier issued with all workers alive: its tasklet is handed out
      `numWorkers` times, after everything queued before it, and the queue
      is left empty. Every run of the barrier tasklet is one `wait` on its
      counter (line 84); with the issuing thread's own `wait` (line 206)
      that is one more arrival than there are workers, and only the last of
      them releases everybody. */
  lemma BarrierRendezvous(r: Runner, id: TaskletId)
    requires Valid(r) && r.numWorkers > 0 && r.live == r.numWorkers
    requires PositiveCounts(r.queue) && NoEndMarker(r.queue)
    requires forall i :: 0 <= i < |r.queue| ==> r.queue[i].id != id
    ensures Run(Barrier(r, id), Works(|Schedule(r.queue)| + r.numWorkers))
            == Ok(r.(queue := [], gate := false), Schedule(r.queue) + Repeat(id, r.numWorkers))
    ensures var runs := Schedule(r.queue) + Repeat(id, r.numWorkers);
            && Count(runs, id) == r.numWorkers
            && Barriers.Arrivals(Barriers.NewBarrier(r.numWorkers), Count(runs, id) + 1).released
               == seq(r.numWorkers, _ => false) + [true]
  {
    var n := r.numWorkers;
    BarrierDrains(r, id);
    assert Count(Schedule(r.queue) + Repeat(id, n), id) == n by {
      ScheduleAvoids(r.queue, id);
      CountAbsent(Schedule(r.queue), id);
      CountAppend(Schedule(r.queue), Repeat(id, n), id);
      CountRepeat(id, n);
    }
    Barriers.ReleasedOnLastArrival(n);
  }

  lemma BarrierDrains(r: Runner, id: TaskletId)
    requires Valid(r) && r.numWorkers > 0 && r.live == r.numWorkers
    requires PositiveCounts(r.queue) && NoEndMarker(r.queue)
    ensures Run(Barrier(r, id), Works(|Schedule(r.queue)| + r.numWorkers))
            == Ok(r.(queue := [], gate := false), Schedule(r.queue) + Repeat(id, r.numWorkers))
  {
    var n := r.numWorkers;
    var k := |Schedule(r.queue)| + n;
    var sched := Schedule(r.queue) + Repeat(id, n);
    var r1 := Barrier(r, id);
    assert Valid(r1) && r1.live > 0 && r1.queue == r.queue + [BarrierTasklet(id, n)]
           && r1.(queue := [], gate := false) == r.(queue := [], gate := false) by {
      BarrierQueued(r, id);
    }
    assert PositiveCounts(r1.queue) && NoEndMarker(r1.queue) && sched == Schedule(r1.queue) by {
      BarrierSchedule(r.queue, id, n);
    }
    assert Run(r1, Works(k)) == Ok(r1.(queue := [], gate := false), sched) by {
      DrainWhole(r1, r1.queue, k, sched);
    }
  }

  /** With workers, a barrier leaves a valid runner whose queue is the old
      one with the barrier tasklet behind it. */
  lemma BarrierQueued(r: Runner, id: TaskletId)
    requires Valid(r) && r.numWorkers > 0 && r.live == r.numWorkers
    ensures Valid(Barrier(r, id)) && Barrier(r, id).live > 0
    ensures Barrier(r, id).queue == r.queue + [BarrierTasklet(id, r.numWorkers)]
    ensures Barrier(r, id).(queue := [], gate := false) == r.(queue := [], gate := false)
  {
  }

  /** A queue of ordinary tasklets, drained by as many worker steps as its
      schedule is long. */
  lemma DrainWhole(r: Runner, p: seq<Tasklet>, k: nat, sched: seq<TaskletId>)
    requires Valid(r) && r.live > 0 && r.queue == p
    requires PositiveCounts(p) && NoEndMarker(p)
    requires sched == Schedule(p) && k == |sched|
    ensures Run(r, Works(k)) == Ok(r.(queue := [], gate := false), sched)
  {
    assert p == p + [];
    DrainAll(r, p, []);
  }

  /** How many of the runs are runs of `id`. */
  function Count(s: seq<TaskletId>, id: TaskletId): (c: nat)
    ensures c <= |s|
  {
    if s == [] then 0 else (if s[0] == id then 1 else 0) + Count(s[1..], id)
  }

  lemma {:induction false} CountAppend(a: seq<TaskletId>, b: seq<TaskletId>, id: TaskletId)
    ensures Count(a + b, id) == Count(a, id) + Count(b, id)
    decreases |a|
  {
    if a == [] {
      assert a + b == b;
    } else {
      assert (a + b)[0] == a[0];
      assert (a + b)[1..] == a[1..] + b;
      CountAppend(a[1..], b, id);
    }
  }

  lemma {:induction false} CountRepeat(id: TaskletId, k: nat)
    ensures Count(Repeat(id, k), id) == k
    decreases k
  {
    if k > 0 {
      var s := Repeat(id, k);
      assert s[0] == id && s[1..] == Repeat(id, k - 1);
      CountRepeat(id, k - 1);
    }
  }

  lemma {:induction false} CountAbsent(s: seq<TaskletId>, id: TaskletId)
    requires id !in s
    ensures Count(s, id) == 0
    decreases |s|
  {
    if s != [] {
      assert s[0] != id;
      assert forall x :: x in s[1..] ==> x in s;
      CountAbsent(s[1..], id);
    }
  }

  /** The schedule of a queue only lists ids of tasklets in that queue. */
  lemma {:induction false} ScheduleAvoids(q: seq<Tasklet>, id: TaskletId)
    requires forall i :: 0 <= i < |q| ==> q[i].id != id
    ensures id !in Schedule(q)
    decreases |q|
  {
    if q != [] {
      assert id !in Runs(q[0]);
      ScheduleAvoids(q[1..], id);
    }
  }

  /** A barrier tasklet behind a queue owes one run per worker, after
      everything in front of it. */
  lemma BarrierSchedule(q: seq<Tasklet>, id: TaskletId, n: nat)
    requires PositiveCounts(q) && NoEndMarker(q) && n > 0
    ensures Schedule(q + [BarrierTasklet(id, n)]) == Schedule(q) + Repeat(id, n)
    ensures PositiveCounts(q + [BarrierTasklet(id, n)]) && NoEndMarker(q + [BarrierTasklet(id, n)])
  {
    var bt := BarrierTasklet(id, n);
    ScheduleAppend(q, [bt]);
    assert Schedule([bt]) == Repeat(id, n) + Schedule([]);
  }

  // ---------------------------------------------------------------------
  // Synchronous and asynchronous modes

  /** Without workers, dispatching runs every tasklet inline, in order. */
  lemma {:induction false} RunSubmitsSync(r: Runner, ts: seq<Tasklet>)
    requires Valid(r) && r.numWorkers == 0
    requires forall i :: 0 <= i < |ts| ==> ts[i].kind == Plain && ts[i].refCount > 0
    ensures Run(r, Submits(ts)) == Ok(r, Schedule(ts))
    decreases |ts|
  {
    if ts == [] {
      assert Submits(ts) == [];
    } else {
      var t := ts[0];
      assert Run(r, Submits(ts)) == Prepend(Schedule([t]), Run(r, Submits(ts[1..]))) by {
        assert Submits(ts)[0] == Submit(t) && Submits(ts)[1..] == Submits(ts[1..]);
        InlineMatchesSchedule(t);
        RunCons(r, Submits(ts));
      }
      RunSubmitsSync(r, ts[1..]);
      assert Schedule(ts) == Schedule([t]) + Schedule(ts[1..]) by {
        assert ts == [t] + ts[1..];
        ScheduleAppend([t], ts[1..]);
      }
    }
  }

  /** With workers, dispatching only appends to the queue. */
  lemma {:induction false} RunSubmitsAsync(r: Runner, ts: seq<Tasklet>)
    requires Valid(r) && r.numWorkers > 0
    ensures Run(r, Submits(ts)) == Ok(r.(queue := r.queue + ts, gate := r.gate || ts != []), [])
    decreases |ts|
  {
    if ts == [] {
      assert Submits(ts) == [];
      assert r.queue + ts == r.queue;
    } else {
      var t := ts[0];
      var r1 := r.(queue := r.queue + [t], gate := true);
      assert Run(r, Submits(ts)) == Prepend([], Run(r1, Submits(ts[1..]))) by {
        assert Submits(ts)[0] == Submit(t) && Submits(ts)[1..] == Submits(ts[1..]);
        RunCons(r, Submits(ts));
      }
      RunSubmitsAsync(r1, ts[1..]);
      assert r1.queue + ts[1..] == r.queue + ts;
      PrependNothing(Run(r1, Submits(ts[1..])));
    }
  }

  /** Synchronous equivalence: without workers, dispatching a sequence of
      tasklets runs each inline, its count times, in order; with workers,
      the same dispatches followed by enough worker steps produce the very
      same runs and bring the runner back to its initial state. */
  lemma SyncEquivalence(numWorkers: nat, ts: seq<Tasklet>)
    requires forall i :: 0 <= i < |ts| ==> ts[i].kind == Plain && ts[i].refCount > 0
    ensures Run(Create(0), Submits(ts)) == Ok(Create(0), Schedule(ts))
    ensures numWorkers > 0 ==>
              Run(Create(numWorkers), Submits(ts) + Works(|Schedule(ts)|))
              == Ok(Create(numWorkers), Schedule(ts))
  {
    RunSubmitsSync(Create(0), ts);
    if numWorkers > 0 {
      AsyncThenDrain(numWorkers, ts);
    }
  }

  lemma AsyncThenDrain(numWorkers: nat, ts: seq<Tasklet>)
    requires numWorkers > 0
    requires forall i :: 0 <= i < |ts| ==> ts[i].kind == Plain && ts[i].refCount > 0
    ensures Run(Create(numWorkers), Submits(ts) + Works(|Schedule(ts)|))
            == Ok(Create(numWorkers), Schedule(ts))
  {
    var r := Create(numWorkers);
    var r1 := r.(queue := ts, gate := ts != []);
    assert Run(r, Submits(ts)) == Ok(r1, []) by {
      RunSubmitsAsync(r, ts);
    }
    assert Run(r1, Works(|Schedule(ts)|)) == Ok(r, Schedule(ts)) by {
      assert r1.queue == ts + [];
      DrainAll(r1, ts, []);
    }
    RunThen(r, Submits(ts), Works(|Schedule(ts)|), r1, [], r, Schedule(ts));
  }

  /** A queued ordinary tasklet whose count is not positive is never popped:
      the count only moves further from zero, so every worker step hands it
      out again and nothing queued behind it is ever reached, whereas
      dispatched without workers it is not run at all. */
  lemma {:induction false} NonPositiveCountNeverRetires(r: Runner, k: nat)
    requires Valid(r) && r.live > 0 && r.queue != []
    requires !r.queue[0].IsEndMarker() && r.queue[0].refCount <= 0
    ensures Run(r, Works(k)).Ok?
    ensures Run(r, Works(k)).runs == Repeat(r.queue[0].id, k)
    ensures |Run(r, Works(k)).runner.queue| == |r.queue|
    ensures Run(r, Works(k)).runner.queue[0].id == r.queue[0].id
    ensures Run(r, Works(k)).runner.queue[1..] == r.queue[1..]
    ensures RunInline(r.queue[0]).ran == []
    decreases k
  {
    if k > 0 {
      assert Works(k)[1..] == Works(k - 1);
      var r1 := Apply(r, Work).runner;
      ApplyValid(r, Work);
      NonPositiveCountNeverRetires(r1, k - 1);
    }
  }
}
